=== FILE: README.md ===
# pgtype arrays and the gofrs UUID adapter, in Dafny

This project models two parts of the Go library `pgtype`, which converts
between Go values and PostgreSQL values.

**N-dimensional arrays.** `CIDRArray`, `TimestampArray` and `EnumArray`
share one array value model, `{Elements, Dimensions, Status}`:

- Elements is a flat, row-major list of elements. Each element is undefined,
  null or present.
- Dimensions is a list of `{Length, LowerBound}`, outermost first.
- Status is undefined (the zero value), null or present.

`Set` ingests a nested Go value (slices or fixed-size arrays, any depth, or
nil). It produces the elements in row-major order and one dimension per
level, each with lower bound 1.

`AssignTo` rebuilds a nested Go value of the destination's type from the
flat form. It fails when:

- the rank differs from the destination's;
- a fixed-size level's length differs from its dimension;
- an element is null and its slot cannot hold nil.

In the model:

- a Go value is the tree `Native.Native<T>`: a nil leaf, a leaf, a nil
  slice, a slice, or a fixed array;
- a destination type is the chain `Native.Dest`: slice levels and
  fixed-size levels around an element slot that is or is not nullable.

These two datatypes stand in for Go reflection.

**The gofrs UUID adapter.** It holds 16 bytes and a status.

- `Set` accepts a `[16]byte`, a 16-byte `[]byte`, a `*UUID`, nil, or the
  canonical text.
- `AssignTo` writes a `[16]byte`, a `[]byte` or a `string`.
- The text form is the hyphenated 8-4-4-4-12 form of section 3 of
  RFC 4122, written in lower-case hexadecimal.

**Modules:**

| module | contents |
|---|---|
| `Values` | the array value |
| `Native` | Go values and destination types |
| `Ingest` | `Set` |
| `Assign` | `AssignTo` |
| `RoundTrip` | inverse and equivalence lemmas |
| `ArrayTypes` | the receivers and destinations `Set` and `AssignTo` update in place |
| `Transcode` | the abstract transcode round trip |
| `ArrayFixtures` | the array tests, restated |
| `Hex` | hexadecimal digits |
| `GofrsUuid` | the UUID adapter |
| `UuidFixtures` | the UUID tests, restated |

**Design decisions** where the tests leave the behaviour open:

- `Set` of a bare scalar is an error. Only slices, arrays and nil are array
  sources.
- `Set` leaves its receiver unchanged when it fails.
- A null array assigns a nil slice. Into a fixed-size array or a bare slot
  it is an error.
- A present array with no elements assigns an empty, non-nil slice. No rank
  check is made.
- Into a fixed-size array, the empty array assigns the zero value of that
  type when the type has no element slots: a level of size 0 is an empty
  array, and a slice below fixed levels stays nil. A fixed-size type that
  has element slots, such as `[2]T`, refuses it with a length mismatch.
- `Set` checks the shape of every source, empty ones included. A ragged
  value fails even when the first path it probes has a zero length.
- An array has no dimensions exactly when it has no elements. Reading a
  transcoded header that lists dimensions but describes no elements fails.
- A source with no elements loses its inner structure. `[][]T{{}, {}}` sets
  the empty array, which assigns `[][]T{}` back. A leafless fixed-size
  source assigns back the zero value of its type, with nil slices inside.
- UUID text is read in the canonical 36-character form only, with digits in
  either case.
- A `*UUID` source is read through its status: a present one is copied, a
  null one sets null with zero bytes, and an undefined one is an error. A
  UUID that `Set` accepts is therefore always defined, and zero when null.

## Model

| member | source | states |
|---|---|---|
| Values.UnitDims | cidr_array_test.go:83-91 | The dimensions `Set` produces have exactly the given lengths, outermost first, and every lower bound is 1 |
| Values.UnitDimsOfLengths | cidr_array_test.go:110-114 | Dimensions whose lower bounds are all 1 are determined by their lengths alone |
| Values.ProductPositive | cidr_array_test.go:110-115 | The element count (product of the lengths) is positive exactly when no length is 0 |
| Native.FitsRank | timestamp_array_test.go:280-296 | A destination that accepts the lengths has exactly one level per dimension |
| Native.AsFixed | cidr_array_test.go:117-125 | Turning slices into fixed arrays leaves no slice anywhere in the value, nil slices included; a sequence root becomes a fixed array of the same length |
| Ingest.ProbeLengths | cidr_array_test.go:83-91 | The lengths read off the first path: non-empty exactly for a sequence, the first is the outer length |
| Ingest.Flatten | cidr_array_test.go:92-116 | Flattening against lengths succeeds exactly when the value is rectangular with those lengths; then it yields product-of-lengths elements, the depth-first leaves |
| Ingest.FlattenAll | cidr_array_test.go:84-91 | Flattening k rows yields k times the row size, the rows' leaves in order |
| Ingest.ElementOf | cidr_array_test.go:186-196 | A nil leaf becomes a null element, a value leaf a present element holding it |
| Ingest.FromNative | cidr_array_test.go:56-164 | Set: the result is well-formed (element count = product of lengths, no dimensions exactly when no elements), never undefined, has no undefined element and has every lower bound 1; a present result's elements are the source's leaves in row-major order, and when there are any, its dimension lengths are the lengths observed along the source, outermost first, and the source is rectangular with them; it is null exactly for a nil source; it fails exactly for a bare scalar or a value not rectangular along its probed lengths, empty ones included |
| Ingest.LeavesDefined | cidr_array_test.go:61-81 | No leaf of a native value is undefined |
| Ingest.LeavesAllDefined | cidr_array_test.go:84-116 | No leaf of a list of native values is undefined |
| Ingest.SetRowMajor | cidr_array_test.go:92-116 | Element `Offset(i, w, j)` of the ingested array is leaf `j` of outer item `i`, with `w` elements per item |
| Ingest.SetRows | cidr_array_test.go:92-116 | A non-empty ingested array is the leaves of the outer items in order, `w` per item |
| Ingest.LeavesAllAt | timestamp_array_test.go:99-123 | In a list of rows of `w` leaves each, row `i`'s leaf `j` sits at flat index `Offset(i, w, j)` |
| Ingest.OffsetValue | timestamp_array_test.go:99-123 | The row-by-row flat index `Offset(i, w, j)` is `i*w+j` |
| Ingest.RowsHaveWidth | cidr_array_test.go:84-91 | Every item shaped by the inner lengths has exactly their product of leaves |
| Ingest.LeavesOfElementRow | cidr_array_test.go:61-67 | The leaves of a one-level slice are its elements in order |
| Ingest.SetOneDimension | cidr_array_test.go:61-67 | A non-empty 1-D slice gives one dimension `{n, 1}` and its elements in order, nil leaves as null elements |
| Assign.AssignElement | cidr_array_test.go:188-214 | An element is written exactly when it is present, or null into a nullable slot; null gives nil; present gives the value |
| Assign.Build | timestamp_array_test.go:259-305 | A successfully rebuilt value has the destination's type |
| Assign.BuildRows | timestamp_array_test.go:271-296 | Rebuilding k rows gives k values, each of the level's type |
| Assign.AllAssignableAppend | timestamp_array_test.go:271-296 | Every element of a concatenation is assignable exactly when every element of both parts is |
| Assign.BuildSucceedsIff | timestamp_array_test.go:259-305 | With no zero length, building succeeds exactly when the destination fits the lengths and every element is assignable to its slot |
| Assign.BuildRowsSucceedsIff | timestamp_array_test.go:271-296 | With no zero length, rebuilding k rows succeeds exactly when the level fits and every element is assignable |
| Assign.BuildRowsUnfold | timestamp_array_test.go:271-296 | k rows are rebuilt exactly when the first row and the remaining k - 1 rows are |
| Assign.EmptyOf | cidr_array_test.go:215-233 | The value the empty array assigns into a fixed-size type without element slots has that type |
| Assign.ToNative | cidr_array_test.go:166-319 | AssignTo: the result always has the destination's type; it is a nil slice exactly when the array is null and the destination is a slice; an undefined array fails; a null array succeeds exactly into a slice; a present empty array into a slice of any rank gives an empty, non-nil slice |
| RoundTrip.BuildFlatten | cidr_array_test.go:245-306 | Rebuilding the flattened leaves of a rectangular value, into its own type, gives the value back |
| RoundTrip.BuildRowsFlatten | cidr_array_test.go:245-270 | Rebuilding the leaves of equally shaped rows gives the rows back |
| RoundTrip.FlattenBuild | timestamp_array_test.go:170-245 | A successfully rebuilt value is rectangular with the given lengths, and flattening it gives the elements back |
| RoundTrip.SequenceNode | timestamp_array_test.go:170-207 | A slice or fixed array of shaped rows that probe to the inner lengths is shaped by, and probes to, the whole lengths, and its leaves are the rows' leaves |
| RoundTrip.FlattenBuildRows | timestamp_array_test.go:170-207 | Rebuilt rows are rectangular, probe to the given lengths, and flatten back to the elements |
| RoundTrip.BuildRowsStep | cidr_array_test.go:245-270 | Successfully rebuilt rows are the first row rebuilt from the first `w` elements followed by the rest rebuilt from the remainder |
| RoundTrip.ConsRows | cidr_array_test.go:245-270 | Prepending a row shaped by the lengths to shaped rows keeps every row shaped and concatenates their leaves |
| RoundTrip.SetThenAssignToLeafless | cidr_array_test.go:215-233 | Set then AssignTo of a leafless value of a fixed-size type gives that type's zero value |
| RoundTrip.LeaflessHasZero | cidr_array_test.go:215-233 | A fixed-size type with a leafless value has no element slots, so it has a zero value |
| RoundTrip.SetThenAssignTo | cidr_array_test.go:245-306 | Set then AssignTo into a variable of the source's own type restores the source: nil slice, empty slice, every source with elements |
| RoundTrip.AssignToThenSet | timestamp_array_test.go:139-257 | AssignTo then Set restores every well-formed, defined array with lower bounds 1, the empty array assigned into fixed-size types included |
| RoundTrip.EmptyOfIngestsEmpty | cidr_array_test.go:215-233 | The zero value the empty array assigns into a fixed-size type ingests back to the empty array |
| RoundTrip.EmptyOfFlattens | cidr_array_test.go:215-233 | That zero value is rectangular along its probed lengths and has no leaves |
| RoundTrip.CopiesFlatten | cidr_array_test.go:84-116 | Rows that each flatten to nothing flatten together to nothing |
| RoundTrip.AssignToSucceedsIff | timestamp_array_test.go:259-305 | For a present array with elements, AssignTo succeeds exactly when the ranks match, each fixed level matches its dimension, and no null element meets a non-nullable slot |
| RoundTrip.FixedIngestsLikeSlice | cidr_array_test.go:117-150 | A fixed-size Go array ingests to exactly the array value of the equivalent nested slice |
| RoundTrip.ProbeLengthsAsFixed | cidr_array_test.go:117-125 | Fixed arrays probe to the same lengths as the slices they replace |
| RoundTrip.FlattenAsFixed | cidr_array_test.go:126-150 | Fixed arrays flatten exactly as the slices they replace |
| RoundTrip.FlattenAllAsFixed | cidr_array_test.go:126-150 | Rows turned into fixed arrays flatten exactly as the original rows |
| ArrayTypes.Destination.constructor | cidr_array_test.go:167-172 | A destination variable starts with a value of its own type |
| ArrayTypes.TypedArray.constructor | cidr_array_test.go:153-155 | The zero value `var r CIDRArray` is undefined with no elements and no dimensions |
| ArrayTypes.TypedArray.Of | cidr_array_test.go:179-184 | A composite literal holds exactly the given elements, dimensions and status |
| ArrayTypes.TypedArray.Set | cidr_array_test.go:153-163 | On success the receiver becomes the ingested array, which is well-formed with lower bounds 1 and is null exactly for a nil source; on failure the error is returned and the receiver is unchanged |
| ArrayTypes.TypedArray.AssignTo | cidr_array_test.go:309-318 | On success the destination holds the rebuilt value, of its own type; on failure the error is returned and the destination is unchanged |
| ArrayTypes.SetThenAssign | enum_array_test.go:120-131 | Set on a fresh receiver, then AssignTo a variable of the source's type, leaves the source in the variable for a nil slice, an empty slice and every source with elements; a leafless source of a fixed-size type comes back as that type's zero value |
| ArrayFixtures.SetTwoByOne | enum_array_test.go:71-100 | `[][]string{{"foo"},{"bar"}}` and `[2][1]string` both give dimensions `{2,1},{1,1}` and elements foo, bar |
| ArrayFixtures.SetFourLevels | timestamp_array_test.go:99-123 | A `[][][][]` value and a `[2][1][1][3]` value both give dimensions 2, 1, 1, 3 and the six leaves in row-major order |
| ArrayFixtures.FourLevelsShape | cidr_array_test.go:92-101 | The four-level value is rectangular with lengths 2, 1, 1, 3 and its leaves are the six values in order |
| ArrayFixtures.AssignFourLevels | cidr_array_test.go:245-306 | The six-element array with dimensions 2, 1, 1, 3 rebuilds into `[][][][]T` and into `[2][1][1][3]T` |
| ArrayFixtures.FourLevelsConform | cidr_array_test.go:170 | The four-level slice value has type `[][][][]T` |
| ArrayFixtures.AsFixedConforms | cidr_array_test.go:171-172 | A rectangular slice value turned into fixed arrays has the fixed-array type of its lengths |
| ArrayFixtures.AssignNullAndEmpty | cidr_array_test.go:215-233 | A null array assigns a nil slice; a present array with no dimensions assigns an empty, non-nil slice |
| ArrayFixtures.EmptyRowsCollapse | cidr_array_test.go:215-233 | `[][]T{{}, {}}` sets the empty array, which assigns `[][]T{}` back |
| ArrayFixtures.AssignEmptyToFixed | cidr_array_test.go:215-233 | The empty array assigns an empty array into `[0]T` and two nil slices into `[2][]T`, and is refused by `[2]T` with a length mismatch |
| ArrayFixtures.AssignNullElementToNullableSlot | cidr_array_test.go:188-196 | A null element assigns nil into a `[]*net.IPNet` slot |
| ArrayFixtures.AssignToErrors | timestamp_array_test.go:259-305 | The four error cases fail: a null element into `[]time.Time`, `[1,2]` into `[2][1]`, `[1,2]` into `[]`, and `[2,1]` into `[2][1][1][3]` |
| Transcode.ElementOfPayload | enum_array_test.go:29-36 | A received payload becomes a defined element carrying that payload |
| Transcode.Encode | timestamp_array_test.go:12-52 | Sending fails exactly on an undefined array or element; null sends as NULL; otherwise the header keeps the dimensions and records whether an element is null |
| Transcode.Decode | timestamp_array_test.go:12-52 | Reading fails exactly when the payload count differs from the cardinality of the dimensions or when dimensions are listed but no payload; the result is well-formed and defined |
| Transcode.TranscodeRoundTrip | enum_array_test.go:29-50 | An array survives the transcode round trip exactly when it is well-formed and neither it nor any element is undefined |
| Transcode.SetTranscodes | enum_array_test.go:29-50 | Every array Set builds from a native value survives the transcode round trip |
| Transcode.TranscodeFixtures | timestamp_array_test.go:13-52 | The empty array, the null array, a null element among present ones, and lower bounds 4 and 2 all survive the round trip |
| Transcode.TimestampEqualityIgnoresDimensions | timestamp_array_test.go:53-69 | As written, the test's equality judges a 2x2 array with lower bounds 4, 2 equal to a different, flat four-element array |
| Transcode.ArraysEquivalentIsEquality | timestamp_array_test.go:53-69 | Element-wise equality plus equal dimensions is exactly equality of array values |
| Hex.Digit | ext/gofrs-uuid/uuid_test.go:89 | A nibble prints as a lower-case hex digit |
| Hex.DigitValue | ext/gofrs-uuid/uuid_test.go:37 | Reading a digit succeeds exactly on hex digits of either case, gives a value below 16, inverts `Digit` on lower case, and gives an upper-case digit the value of its lower-case form |
| Hex.DecodeIgnoresCase | ext/gofrs-uuid/uuid_test.go:37 | Reading digits gives the same bytes as reading their lower-case form |
| Hex.DigitValueOfDigit | ext/gofrs-uuid/uuid_test.go:37 | Reading a printed digit gives the nibble back |
| Hex.Encode | ext/gofrs-uuid/uuid_test.go:89 | Bytes print as twice as many lower-case hex digits |
| Hex.Decode | ext/gofrs-uuid/uuid_test.go:37 | Reading digits yields half as many bytes, and succeeds exactly for an even number of hexadecimal digits in either case |
| Hex.EncodeAppend | ext/gofrs-uuid/uuid_test.go:89 | Printing distributes over concatenation |
| Hex.EncodeCons | ext/gofrs-uuid/uuid_test.go:89 | A leading byte prints as its high then its low digit, before the rest |
| Hex.DecodeEncode | ext/gofrs-uuid/uuid_test.go:86-99 | Reading printed bytes gives the bytes back |
| Hex.EncodeDecode | ext/gofrs-uuid/uuid_test.go:36-39 | Printing the bytes read from lower-case digits gives the digits back |
| GofrsUuid.Hyphenate | ext/gofrs-uuid/uuid_test.go:89 | 32 digits become 36 characters with hyphens at 8, 13, 18, 23 and the digits in order elsewhere |
| GofrsUuid.Unhyphenate | ext/gofrs-uuid/uuid_test.go:37 | The 32 digits of a 36-character text, hyphen positions skipped, in order |
| GofrsUuid.UnhyphenateHyphenate | ext/gofrs-uuid/uuid_test.go:89 | Removing the hyphens of the grouped digits gives the digits back |
| GofrsUuid.HyphenateUnhyphenate | ext/gofrs-uuid/uuid_test.go:37 | Regrouping the digits of a canonically shaped text gives the text back |
| GofrsUuid.Format | ext/gofrs-uuid/uuid_test.go:86-99 | The text of 16 bytes is in lower-case canonical 8-4-4-4-12 form |
| GofrsUuid.Parse | ext/gofrs-uuid/uuid_test.go:36-39 | Text parses exactly when it has the canonical 8-4-4-4-12 shape with a hexadecimal digit, either case, at every non-hyphen position |
| GofrsUuid.UnhyphenateDigits | ext/gofrs-uuid/uuid_test.go:36-39 | The 32 digits left after removing the hyphens are all hexadecimal exactly when every non-hyphen character of the text is |
| GofrsUuid.ParseFormat | ext/gofrs-uuid/uuid_test.go:86-99 | Parsing the text of any 16 bytes gives the bytes back |
| GofrsUuid.ParseIgnoresCase | ext/gofrs-uuid/uuid_test.go:36-39 | Parsing text gives the same result as parsing its lower-case form |
| GofrsUuid.FormatParseAnyCase | ext/gofrs-uuid/uuid_test.go:36-39 | Every canonical text, either case, parses, and printing the bytes gives its lower-case form |
| GofrsUuid.FormatParse | ext/gofrs-uuid/uuid_test.go:36-39 | Every lower-case canonical text parses, and printing the bytes gives the text back |
| GofrsUuid.DecodeAllDigits | ext/gofrs-uuid/uuid_test.go:36-39 | An even-length run of lower-case digits always reads |
| GofrsUuid.FromSource | ext/gofrs-uuid/uuid_test.go:19-53 | Set: `[16]byte` gives those bytes, present; `[]byte` succeeds exactly at 16 bytes; `*UUID` copies a present UUID, gives zero bytes and null for a null one, and fails for an undefined one; every success is defined and zero when null; text succeeds exactly when it parses and then gives the parsed bytes, present; nil gives zero bytes, null; null exactly for nil or a null `*UUID` |
| GofrsUuid.ToTarget | ext/gofrs-uuid/uuid_test.go:55-101 | AssignTo: the value written is of the target's kind; a present UUID always assigns, copying the bytes to `[16]byte` and `[]byte` and writing canonical lower-case text that parses back to the bytes; a null UUID assigns only to `[]byte` |
| GofrsUuid.AssignToThenSet | ext/gofrs-uuid/uuid_test.go:55-99 | Whatever AssignTo writes, Set reads back to the same UUID |
| GofrsUuid.TextRoundTrip | ext/gofrs-uuid/uuid_test.go:86-99 | A lower-case canonical text survives Set followed by AssignTo into a string |
| GofrsUuid.EncodeText | ext/gofrs-uuid/uuid_test.go:12-17 | Sending fails exactly when undefined; null sends as NULL; present sends canonical text |
| GofrsUuid.DecodeText | ext/gofrs-uuid/uuid_test.go:12-17 | Receiving succeeds exactly on NULL or parseable text and yields a settled UUID |
| GofrsUuid.TextTranscode | ext/gofrs-uuid/uuid_test.go:12-17 | Exactly the defined UUIDs (null ones with zero bytes) survive the transcode round trip |
| GofrsUuid.UuidDestination.constructor | ext/gofrs-uuid/uuid_test.go:58 | A destination variable starts valid, holding the given value, which must be of its own kind |
| GofrsUuid.UuidValue.constructor | ext/gofrs-uuid/uuid_test.go:43 | The zero value `var r UUID` is undefined with zero bytes |
| GofrsUuid.UuidValue.Set | ext/gofrs-uuid/uuid_test.go:42-52 | On success the receiver becomes the UUID read from the source; on failure the error is returned and the receiver is unchanged |
| GofrsUuid.UuidValue.AssignTo | ext/gofrs-uuid/uuid_test.go:55-99 | A valid destination stays valid; on success it holds the value of its kind; on failure the error is returned and it is unchanged |
| UuidFixtures.FormatSample | ext/gofrs-uuid/uuid_test.go:86-99 | Bytes 0 to 15 print as `00010203-0405-0607-0809-0a0b0c0d0e0f` |
| UuidFixtures.FormatSmallBytes | ext/gofrs-uuid/uuid_test.go:89 | With every byte below 16, each printed byte is '0' then its one digit, with hyphens at the canonical positions |
| UuidFixtures.SampleTextZeros | ext/gofrs-uuid/uuid_test.go:89 | The sample text holds '0' at the high digit of every byte |
| UuidFixtures.SampleTextDigits | ext/gofrs-uuid/uuid_test.go:89 | The sample text holds the digit of byte `k` at its low digit |
| UuidFixtures.StringTargetOf | ext/gofrs-uuid/uuid_test.go:86-99 | A present UUID assigns its canonical text to a `string` |
| UuidFixtures.EncodeDigits | ext/gofrs-uuid/uuid_test.go:89 | Bytes below 16 print as '0' followed by their digit |
| UuidFixtures.SetSamples | ext/gofrs-uuid/uuid_test.go:24-35 | A `*UUID`, a `[16]byte` and a 16-byte `[]byte` holding 0 to 15 all set the present UUID of those bytes |
| UuidFixtures.SetSampleText | ext/gofrs-uuid/uuid_test.go:36-39 | The sample text parses to bytes 0 to 15 and sets the present UUID of those bytes |
| UuidFixtures.AssignSamples | ext/gofrs-uuid/uuid_test.go:56-84 | The present UUID of bytes 0 to 15 assigns those bytes to `[16]byte` and to `[]byte` |
| UuidFixtures.AssignSampleText | ext/gofrs-uuid/uuid_test.go:86-99 | The present UUID of bytes 0 to 15 assigns the sample text to a `string` |

## Left out

- Wire byte layouts: the binary and text encodings of arrays and UUIDs are not part of this model. Transcoding is an abstract header-plus-payloads round trip.
- Live-database transcoding: the server round trip and its helpers are not part of this model.
- Element payload semantics: CIDR and IP parsing, `time.Time` equality, time zones and the infinity modifier are not part of this model. Element payloads are an opaque type `T`.
- Element conversion errors: an element value the element type cannot convert is not modelled. Every leaf is assumed convertible, so only the null-into-non-nullable case fails.
- Leaves that are themselves slices (`net.IP` is a `[]byte`): the model treats them as opaque leaves. The element type decides where nesting stops.
- Named slice types such as `_stringSlice`: a destination type is modelled by its shape only. A named slice type is a slice level like `[]string`.
- Go reflection over `interface{}`: replaced by the `Native` and `Dest` datatypes.
- 32-bit array lengths and lower bounds: lengths are unbounded naturals and lower bounds unbounded integers.
- The zero-to-NULL wrapper types (`zeronull`) are not part of this model.
- The gofrs/uuid library's own parser: only the canonical 36-character form is read, not the braced, `urn:uuid:` or unhyphenated forms.
- ArrayTypes.TypedArray.AssignTo: leaves the destination unchanged on failure. The library may write a partial result before it fails, so this contract is stronger than what the library guarantees.
- GofrsUuid.UuidValue.AssignTo: leaves the destination unchanged on failure, for the same reason.
- Ingest.FromNative: a bare scalar (not a slice or array) is rejected as an array source.
- ArrayFixtures.AssignNullAndEmpty: a present array with no elements assigns an empty slice into any slice destination, whatever its rank. No rank check is modelled for the empty case.

## Findings

| source | as written | input that shows it | evidently intended | confidence | as-written member | corrected member |
|---|---|---|---|---|---|---|
| timestamp_array_test.go:53-69 | the transcode equality compares element count, status and elements only, never the dimensions | a 2x2 array with lower bounds 4 and 2 versus the same four elements as a flat `[4]` array, which it judges equal | dimensions (lengths and lower bounds) compared too, so the lower-bound fixture at lines 40-52 is checked | low, not executed | Transcode.TimestampEqualityIgnoresDimensions | Transcode.ArraysEquivalentIsEquality |

=== FILE: array_types.dfy ===
/**
 * The imperative face of the array types. `Set` overwrites its receiver
 * with the array ingested from a native value; `AssignTo` writes the rebuilt
 * native value into a destination variable. CIDRArray, TimestampArray and
 * EnumArray are `TypedArray<T>` for their element payloads.
 */
module ArrayTypes {
  import opened Wrappers
  import opened Values
  import opened Native
  import opened Ingest
  import opened Assign
  import RoundTrip

  /** A Go variable of slice or array type whose address is handed to AssignTo. */
  class Destination<T> {
    const shape: Dest
    var value: Native<T>

    ghost predicate Valid()
      reads this
    {
      Conforms(value, shape)
    }

    constructor (shape: Dest, initial: Native<T>)
      requires Conforms(initial, shape)
      ensures Valid() && this.shape == shape && value == initial
    {
      this.shape := shape;
      value := initial;
    }
  }

  class TypedArray<T> {
    var elements: seq<Element<T>>
    var dimensions: seq<ArrayDimension>
    var status: Status

    function Value(): ArrayValue<T>
      reads this
    {
      ArrayValue(elements, dimensions, status)
    }

    /** The zero value `var r CIDRArray`: status Undefined, nothing else. */
    constructor ()
      ensures Value() == ArrayValue([], [], Undefined)
    {
      elements, dimensions, status := [], [], Undefined;
    }

    /** A composite literal such as `CIDRArray{Status: Null}`. */
    constructor Of(a: ArrayValue<T>)
      ensures Value() == a
    {
      elements, dimensions, status := a.elements, a.dimensions, a.status;
    }

    /**
     * Replaces the whole receiver with the array ingested from `src`; on
     * failure the receiver is left as it was.
     */
    method Set(src: Native<T>) returns (err: Option<ArrayError>)
      modifies this
      ensures FromNative(src).Success? ==> err == None && Value() == FromNative(src).value
      ensures FromNative(src).Failure? ==> err == Some(FromNative(src).error) && Value() == old(Value())
      ensures err.None? ==> WellFormed(Value()) && UnitLowerBounds(dimensions)
      ensures err.None? ==> (status == Null <==> src.NilSlice? || src.NullLeaf?)
    {
      var r := FromNative(src);
      if r.Failure? {
        return Some(r.error);
      }
      elements, dimensions, status := r.value.elements, r.value.dimensions, r.value.status;
      err := None;
    }

    /**
     * Writes this array into `dst`, rebuilt to the destination's type; on
     * failure the destination is left as it was.
     */
    method AssignTo(dst: Destination<T>) returns (err: Option<ArrayError>)
      requires dst.Valid()
      modifies dst
      ensures dst.Valid()
      ensures ToNative(Value(), dst.shape).Success? ==> err == None && dst.value == ToNative(Value(), dst.shape).value
      ensures ToNative(Value(), dst.shape).Failure? ==>
                err == Some(ToNative(Value(), dst.shape).error) && dst.value == old(dst.value)
    {
      var r := ToNative(Value(), dst.shape);
      if r.Failure? {
        return Some(r.error);
      }
      dst.value := r.value;
      err := None;
    }
  }

  /**
   * Set on a fresh receiver followed by AssignTo into a variable of the
   * source's type: a nil slice, an empty slice and every source with
   * elements come back unchanged; a leafless source of a fixed-size type
   * comes back as that type's zero value.
   */
  method SetThenAssign<T>(src: Native<T>, dst: Destination<T>) returns (err: Option<ArrayError>)
    requires dst.Valid() && Conforms(src, dst.shape) && !dst.shape.Slot?
    modifies dst
    ensures FromNative(src).Success? && (src.NilSlice? || src == Slice([]) || FromNative(src).value.elements != []) ==>
              err == None && dst.value == src
    ensures FromNative(src) == Success(EmptyArray()) && dst.shape.FixedLevel? ==>
              EmptyOf<T>(dst.shape).Some? && err == None && dst.value == EmptyOf<T>(dst.shape).value
  {
    var r := new TypedArray();
    err := r.Set(src);
    if err.None? {
      err := r.AssignTo(dst);
      if FromNative(src).value.elements != [] || src.NilSlice? || src == Slice([]) {
        RoundTrip.SetThenAssignTo(src, dst.shape);
      } else if FromNative(src) == Success(EmptyArray()) && dst.shape.FixedLevel? {
        RoundTrip.SetThenAssignToLeafless(src, dst.shape);
      }
    }
  }
}

=== FILE: assign.dfy ===
/**
 * AssignTo: reconstruction of a nested native value of a given destination
 * type from the flat array form. Levels are allocated outermost first (a
 * slice sized by its dimension, a fixed array of its declared size, which
 * must equal the dimension), and elements are handed out in row-major order
 * to the innermost slots.
 */
module Assign {
  import opened Wrappers
  import opened Values
  import opened Native

  /** An element can be written into a slot: present always, null only into a nullable slot. */
  predicate Assignable<T>(e: Element<T>, nullable: bool) {
    e.PresentElement? || (e.NullElement? && nullable)
  }

  /** Every element can be written into a slot of this nullability. */
  predicate AllAssignable<T>(elements: seq<Element<T>>, nullable: bool) {
    forall i :: 0 <= i < |elements| ==> Assignable(elements[i], nullable)
  }

  lemma AllAssignableAppend<T>(head: seq<Element<T>>, tail: seq<Element<T>>, nullable: bool)
    ensures AllAssignable(head + tail, nullable) <==> AllAssignable(head, nullable) && AllAssignable(tail, nullable)
  {
    var all := head + tail;
    if AllAssignable(head, nullable) && AllAssignable(tail, nullable) {
      forall i | 0 <= i < |all| ensures Assignable(all[i], nullable) {
        if i >= |head| { assert all[i] == tail[i - |head|]; }
      }
    }
    if AllAssignable(all, nullable) {
      forall i | 0 <= i < |head| ensures Assignable(head[i], nullable) {
        assert all[i] == head[i];
      }
      forall i | 0 <= i < |tail| ensures Assignable(tail[i], nullable) {
        assert all[|head| + i] == tail[i];
      }
    }
  }

  /** Writing one element into the innermost slot. */
  function AssignElement<T>(e: Element<T>, nullable: bool): (r: Result<Native<T>, ArrayError>)
    ensures r.Success? <==> Assignable(e, nullable)
    ensures r.Success? ==> Conforms(r.value, Slot(nullable))
    ensures r.Success? ==> (r.value.NullLeaf? <==> e.NullElement?)
    ensures e.PresentElement? ==> r == Success(Leaf(e.value))
  {
    match e
    case PresentElement(v) => Success(Leaf(v))
    case NullElement => if nullable then Success(NullLeaf) else Failure(NullNotAssignable)
    case UndefinedElement => Failure(UndefinedStatus)
  }

  /**
   * Builds a value of type `dest` from `elements`, which the lengths describe
   * row-major: each level is allocated outermost first and the elements are
   * handed out to the innermost slots in order.
   */
  function Build<T>(lengths: seq<nat>, elements: seq<Element<T>>, dest: Dest): (r: Result<Native<T>, ArrayError>)
    requires |elements| == Product(lengths)
    ensures r.Success? ==> Conforms(r.value, dest)
    decreases dest, 0
  {
    match dest
    case Slot(nullable) =>
      if lengths != [] then Failure(RankMismatch) else AssignElement(elements[0], nullable)
    case DynLevel(inner) =>
      if lengths == [] then Failure(RankMismatch)
      else
        var rows :- BuildRows(lengths[0], lengths[1..], elements, inner);
        Success(Slice(rows))
    case FixedLevel(size, inner) =>
      if lengths == [] then Failure(RankMismatch)
      else if lengths[0] != size then Failure(LengthMismatch)
      else
        var rows :- BuildRows(lengths[0], lengths[1..], elements, inner);
        Success(Fixed(rows))
  }

  /** Builds `count` consecutive rows, each of `Product(lengths)` elements. */
  function BuildRows<T>(count: nat, lengths: seq<nat>, elements: seq<Element<T>>, dest: Dest): (r: Result<seq<Native<T>>, ArrayError>)
    requires |elements| == count * Product(lengths)
    ensures r.Success? ==> |r.value| == count && forall i :: 0 <= i < count ==> Conforms(r.value[i], dest)
    decreases dest, count
  {
    if count == 0 then Success([])
    else
      var width := Product(lengths);
      PeelRow(count, width);
      var first :- Build(lengths, elements[..width], dest);
      var rest :- BuildRows(count - 1, lengths, elements[width..], dest);
      Success([first] + rest)
  }

  /**
   * Where no length is 0, building succeeds exactly when the destination
   * fits the lengths and every element can be written into its slot.
   */
  lemma {:induction false} BuildSucceedsIff<T>(lengths: seq<nat>, elements: seq<Element<T>>, dest: Dest)
    requires |elements| == Product(lengths) > 0
    ensures Build(lengths, elements, dest).Success? <==> Fits(dest, lengths) && AllAssignable(elements, SlotNullable(dest))
    decreases dest, 0
  {
    match dest
    case Slot(nullable) =>
    case DynLevel(inner) =>
      if lengths != [] {
        RestProductPositive(lengths);
        BuildRowsSucceedsIff(lengths[0], lengths[1..], elements, inner);
      }
    case FixedLevel(size, inner) =>
      if lengths != [] && lengths[0] == size {
        RestProductPositive(lengths);
        BuildRowsSucceedsIff(lengths[0], lengths[1..], elements, inner);
      }
  }

  /** Building one or more rows succeeds exactly when every row can be built. */
  lemma {:induction false} BuildRowsSucceedsIff<T>(count: nat, lengths: seq<nat>, elements: seq<Element<T>>, dest: Dest)
    requires |elements| == count * Product(lengths) && count > 0 && Product(lengths) > 0
    ensures BuildRows(count, lengths, elements, dest).Success? <==> Fits(dest, lengths) && AllAssignable(elements, SlotNullable(dest))
    decreases dest, count
  {
    var width := Product(lengths);
    var head, tail := elements[..width], elements[width..];
    BuildRowsUnfold(count, lengths, elements, dest);
    BuildSucceedsIff(lengths, head, dest);
    if count > 1 {
      BuildRowsSucceedsIff(count - 1, lengths, tail, dest);
      assert elements == head + tail;
      AllAssignableAppend(head, tail, SlotNullable(dest));
    } else {
      assert elements == head;
    }
  }

  /** k rows are built exactly when the first row and the remaining k - 1 rows are. */
  lemma BuildRowsUnfold<T>(count: nat, lengths: seq<nat>, elements: seq<Element<T>>, dest: Dest)
    requires |elements| == count * Product(lengths) && count > 0
    ensures Product(lengths) <= |elements| && |elements[Product(lengths)..]| == (count - 1) * Product(lengths)
    ensures BuildRows(count, lengths, elements, dest).Success? <==>
              && Build(lengths, elements[..Product(lengths)], dest).Success?
              && BuildRows(count - 1, lengths, elements[Product(lengths)..], dest).Success?
  {
    PeelRow(count, Product(lengths));
  }


  /** Taking one row of `width` off `count` rows leaves `count - 1` rows. */
  lemma PeelRow(count: nat, width: nat)
    requires count > 0
    ensures width <= count * width && (count - 1) * width == count * width - width
  {
  }

  lemma RestProductPositive(lengths: seq<nat>)
    requires lengths != [] && Product(lengths) > 0
    ensures lengths[0] > 0 && Product(lengths[1..]) > 0
  {
  }

  /**
   * The zero value of a destination type that has no element slots, the
   * length-0 allocation a fixed-size destination gets for the empty array:
   * a fixed level of size 0 is an empty array, a slice below a fixed level
   * is nil, and a fixed level of any other size repeats its inner zero
   * value. A type with an element slot has no such value.
   */
  function EmptyOf<T>(dest: Dest): (r: Option<Native<T>>)
    ensures r.Some? ==> Conforms(r.value, dest)
  {
    match dest
    case Slot(_) => None
    case DynLevel(_) => Some(NilSlice)
    case FixedLevel(size, inner) =>
      if size == 0 then Some(Fixed([]))
      else
        var z :- EmptyOf(inner);
        Some(Fixed(seq(size, _ => z)))
  }

  /** The specification of AssignTo. */
  function ToNative<T>(a: ArrayValue<T>, dest: Dest): (r: Result<Native<T>, ArrayError>)
    ensures r.Success? ==> Conforms(r.value, dest)
    ensures (r.Success? && r.value.NilSlice?) <==> (a.status == Null && dest.DynLevel?)
    ensures a.status == Undefined ==> r.Failure?
    ensures a.status == Null ==> (r.Success? <==> dest.DynLevel?)
    ensures a.status == Present && a.elements == [] && dest.DynLevel? ==> r == Success(Slice([]))
  {
    match a.status
    case Undefined => Failure(UndefinedStatus)
    case Null => if dest.DynLevel? then Success(NilSlice) else Failure(NullNotAssignable)
    case Present =>
      if dest.Slot? then Failure(NotAnArrayDestination)
      else if a.elements == [] && dest.DynLevel? then Success(Slice([]))
      else if a.elements == [] && a.dimensions == [] then
        match EmptyOf(dest)
        case Some(z) => Success(z)
        case None => Failure(LengthMismatch)
      else if |a.elements| != Product(Lengths(a.dimensions)) then Failure(ElementCountMismatch)
      else Build(Lengths(a.dimensions), a.elements, dest)
  }
}

=== FILE: fixtures.dfy ===
/**
 * The concrete conversions the array tests check, restated on the model.
 * Element payloads are arbitrary values of the element type, or strings
 * where the enum tests use them.
 */
module ArrayFixtures {
  import opened Wrappers
  import opened Values
  import opened Native
  import opened Ingest
  import opened Assign
  import RoundTrip

  /** `[][]string{{"foo"}, {"bar"}}` and `[2][1]string{{"foo"}, {"bar"}}` ingest alike. */
  lemma SetTwoByOne()
    ensures var src := Slice([Slice([Leaf("foo")]), Slice([Leaf("bar")])]);
      var want := ArrayValue([PresentElement("foo"), PresentElement("bar")],
                             [ArrayDimension(2, 1), ArrayDimension(1, 1)], Present);
      FromNative(src) == Success(want) && FromNative(AsFixed(src)) == Success(want)
  {
    var src := Slice([Slice([Leaf("foo")]), Slice([Leaf("bar")])]);
    assert ProbeLengths(src) == [2, 1];
    assert Shaped(src, [2, 1]);
    assert Leaves(src) == [PresentElement("foo"), PresentElement("bar")];
    assert UnitDims([2, 1]) == [ArrayDimension(2, 1), ArrayDimension(1, 1)];
    RoundTrip.FixedIngestsLikeSlice(src);
  }

  function FourLevels<T>(a: T, b: T, c: T, d: T, e: T, f: T): Native<T> {
    Slice([Slice([Slice([Slice([Leaf(a), Leaf(b), Leaf(c)])])]),
           Slice([Slice([Slice([Leaf(d), Leaf(e), Leaf(f)])])])])
  }

  function FourLevelArray<T>(a: T, b: T, c: T, d: T, e: T, f: T): ArrayValue<T> {
    ArrayValue([PresentElement(a), PresentElement(b), PresentElement(c),
                PresentElement(d), PresentElement(e), PresentElement(f)],
               [ArrayDimension(2, 1), ArrayDimension(1, 1), ArrayDimension(1, 1), ArrayDimension(3, 1)],
               Present)
  }

  /** A `[][][][]` value and a `[2][1][1][3]` value give dimensions 2, 1, 1, 3 and six elements in row-major order. */
  lemma SetFourLevels<T>(a: T, b: T, c: T, d: T, e: T, f: T)
    ensures FromNative(FourLevels(a, b, c, d, e, f)) == Success(FourLevelArray(a, b, c, d, e, f))
    ensures FromNative(AsFixed(FourLevels(a, b, c, d, e, f))) == Success(FourLevelArray(a, b, c, d, e, f))
  {
    var src := FourLevels(a, b, c, d, e, f);
    FourLevelsShape(a, b, c, d, e, f);
    assert Flatten(src, [2, 1, 1, 3]).Success?;
    assert Product([2, 1, 1, 3]) == 6;
    assert UnitDims([2, 1, 1, 3]) == FourLevelArray(a, b, c, d, e, f).dimensions;
    RoundTrip.FixedIngestsLikeSlice(src);
  }

  /** The four-level value is rectangular with lengths 2, 1, 1, 3, and its leaves are a to f in order. */
  lemma FourLevelsShape<T>(a: T, b: T, c: T, d: T, e: T, f: T)
    ensures ProbeLengths(FourLevels(a, b, c, d, e, f)) == [2, 1, 1, 3]
    ensures Shaped(FourLevels(a, b, c, d, e, f), [2, 1, 1, 3])
    ensures Leaves(FourLevels(a, b, c, d, e, f)) == FourLevelArray(a, b, c, d, e, f).elements
  {
    var src := FourLevels(a, b, c, d, e, f);
    var row1, row2 := Slice([Leaf(a), Leaf(b), Leaf(c)]), Slice([Leaf(d), Leaf(e), Leaf(f)]);
    RowFacts(row1, a, b, c);
    RowFacts(row2, d, e, f);
    WrapFacts(row1, [3]);
    WrapFacts(row2, [3]);
    WrapFacts(Slice([row1]), [1, 3]);
    WrapFacts(Slice([row2]), [1, 3]);
    var top1, top2 := Slice([Slice([row1])]), Slice([Slice([row2])]);
    assert src == Slice([top1, top2]);
    assert ProbeLengths(top1) == [1] + ([1] + [3]) == [1, 1, 3];
    assert ProbeLengths(src) == [2] + ProbeLengths(top1) == [2, 1, 1, 3];
    assert Shaped(src, [2, 1, 1, 3]) by {
      assert [2, 1, 1, 3][1..] == [1, 1, 3];
    }
    assert [top1, top2][1..] == [top2];
    assert [top2][1..] == [];
    assert LeavesAll([top2]) == Leaves(top2);
    assert Leaves(src) == Leaves(top1) + Leaves(top2);
  }

  lemma {:induction false} RowFacts<T>(row: Native<T>, a: T, b: T, c: T)
    requires row == Slice([Leaf(a), Leaf(b), Leaf(c)])
    ensures ProbeLengths(row) == [3] && Shaped(row, [3])
    ensures Leaves(row) == [PresentElement(a), PresentElement(b), PresentElement(c)]
    ensures forall i :: 0 <= i < 3 ==> Conforms(row.items[i], Slot(false))
  {
    assert [3][1..] == [];
    assert [Leaf(a), Leaf(b), Leaf(c)][1..] == [Leaf(b), Leaf(c)];
    assert [Leaf(b), Leaf(c)][1..] == [Leaf(c)];
    assert [Leaf(c)][1..] == [];
    assert LeavesAll([Leaf(c)]) == [PresentElement(c)];
    assert LeavesAll([Leaf(b), Leaf(c)]) == [PresentElement(b)] + LeavesAll([Leaf(c)]);
    assert LeavesAll([Leaf(a), Leaf(b), Leaf(c)]) == [PresentElement(a)] + LeavesAll([Leaf(b), Leaf(c)]);
    assert Leaves(row) == LeavesAll([Leaf(a), Leaf(b), Leaf(c)]);
  }

  /** Wrapping a shaped value in a one-item slice adds an outer dimension of length 1. */
  lemma {:induction false} WrapFacts<T>(n: Native<T>, lengths: seq<nat>)
    requires ProbeLengths(n) == lengths && Shaped(n, lengths)
    ensures ProbeLengths(Slice([n])) == [1] + lengths && Shaped(Slice([n]), [1] + lengths)
    ensures Leaves(Slice([n])) == Leaves(n)
  {
    assert ([1] + lengths)[1..] == lengths;
    assert [n][1..] == [];
    assert LeavesAll([n]) == Leaves(n) + LeavesAll([]);
  }

  /** The four-level array rebuilds into `[][][][]T` and into `[2][1][1][3]T`. */
  lemma AssignFourLevels<T>(a: T, b: T, c: T, d: T, e: T, f: T, nullable: bool)
    ensures var slices := DynLevel(DynLevel(DynLevel(DynLevel(Slot(nullable)))));
      ToNative(FourLevelArray(a, b, c, d, e, f), slices) == Success(FourLevels(a, b, c, d, e, f))
    ensures var arrays := FixedLevel(2, FixedLevel(1, FixedLevel(1, FixedLevel(3, Slot(nullable)))));
      ToNative(FourLevelArray(a, b, c, d, e, f), arrays) == Success(AsFixed(FourLevels(a, b, c, d, e, f)))
  {
    SetFourLevels(a, b, c, d, e, f);
    var src := FourLevels(a, b, c, d, e, f);
    var slot := Slot(nullable);
    var lengths := [2, 1, 1, 3];
    FourLevelsShape(a, b, c, d, e, f);
    FourLevelsConform(a, b, c, d, e, f, slot);
    RoundTrip.SetThenAssignTo(src, DynChain(4, slot));
    assert FixedChain(lengths, slot) == FixedLevel(2, FixedLevel(1, FixedLevel(1, FixedLevel(3, slot)))) by {
      assert lengths[1..] == [1, 1, 3] && lengths[1..][1..] == [1, 3] && lengths[1..][1..][1..] == [3];
      assert [3][1..] == [];
      assert FixedChain([3], slot) == FixedLevel(3, slot);
      assert FixedChain([1, 3], slot) == FixedLevel(1, FixedChain([3], slot));
      assert FixedChain([1, 1, 3], slot) == FixedLevel(1, FixedChain([1, 3], slot));
    }
    AsFixedConforms(src, lengths, slot);
    RoundTrip.SetThenAssignTo(AsFixed(src), FixedChain(lengths, slot));
  }

  lemma FourLevelsConform<T>(a: T, b: T, c: T, d: T, e: T, f: T, slot: Dest)
    requires slot.Slot?
    ensures DynChain(4, slot) == DynLevel(DynLevel(DynLevel(DynLevel(slot))))
    ensures Conforms(FourLevels(a, b, c, d, e, f), DynChain(4, slot))
  {
    assert DynChain(2, slot) == DynLevel(DynChain(1, slot)) == DynLevel(DynLevel(slot));
    assert DynChain(4, slot) == DynLevel(DynChain(3, slot)) == DynLevel(DynLevel(DynChain(2, slot)));
    var rowDest := DynLevel(slot);
    var row1, row2 := Slice([Leaf(a), Leaf(b), Leaf(c)]), Slice([Leaf(d), Leaf(e), Leaf(f)]);
    assert Conforms(row1, rowDest) && Conforms(row2, rowDest);
    assert Conforms(Slice([row1]), DynLevel(rowDest)) && Conforms(Slice([row2]), DynLevel(rowDest));
    assert Conforms(Slice([Slice([row1])]), DynLevel(DynLevel(rowDest)));
    assert Conforms(Slice([Slice([row2])]), DynLevel(DynLevel(rowDest)));
  }

  /** `k` nested slice levels around `slot`. */
  function DynChain(k: nat, slot: Dest): Dest {
    if k == 0 then slot else DynLevel(DynChain(k - 1, slot))
  }

  /** Nested fixed-size array levels of the given lengths around `slot`. */
  function FixedChain(lengths: seq<nat>, slot: Dest): Dest {
    if lengths == [] then slot else FixedLevel(lengths[0], FixedChain(lengths[1..], slot))
  }

  /** A rectangular slice value, with every level made a fixed-size array, fits the array type of its lengths. */
  lemma {:induction false} AsFixedConforms<T>(n: Native<T>, lengths: seq<nat>, slot: Dest)
    requires slot.Slot? && Shaped(n, lengths) && Conforms(n, DynChain(|lengths|, slot))
    ensures Conforms(AsFixed(n), FixedChain(lengths, slot))
    decreases n
  {
    if lengths != [] {
      assert DynChain(|lengths|, slot) == DynLevel(DynChain(|lengths[1..]|, slot));
      match n
      case NilSlice =>
      case Slice(items) =>
        forall i | 0 <= i < |items|
          ensures Conforms(AsFixed(items[i]), FixedChain(lengths[1..], slot))
        {
          AsFixedConforms(items[i], lengths[1..], slot);
        }
    }
  }

  /**
   * A null array assigns a nil slice; a present array with no dimensions
   * assigns an empty, non-nil slice.
   */
  lemma AssignNullAndEmpty<T>(slot: Dest)
    requires slot.Slot?
    ensures ToNative(NullArray<T>(), DynLevel(slot)) == Success(NilSlice)
    ensures ToNative(EmptyArray<T>(), DynLevel(slot)) == Success(Slice([]))
  {
  }

  /**
   * The empty array into fixed-size destinations: `[0]T` gets an empty
   * array, `[2][]T` two nil slices, and `[2]T`, which has element slots,
   * is refused.
   */
  lemma AssignEmptyToFixed<T>(slot: Dest)
    requires slot.Slot?
    ensures ToNative(EmptyArray<T>(), FixedLevel(0, slot)) == Success(Fixed([]))
    ensures ToNative(EmptyArray<T>(), FixedLevel(2, DynLevel(slot))) == Success(Fixed([NilSlice, NilSlice]))
    ensures ToNative(EmptyArray<T>(), FixedLevel(2, slot)) == Failure(LengthMismatch)
  {
    assert EmptyOf<T>(FixedLevel(2, DynLevel(slot))) == Some(Fixed(seq(2, _ => NilSlice)));
    assert EmptyOf<T>(FixedLevel(2, slot)) == None;
    assert seq(2, _ => Native<T>.NilSlice) == [NilSlice, NilSlice];
  }

  /** Rows with no elements collapse: `[][]T{{}, {}}` comes back as `[][]T{}`. */
  lemma EmptyRowsCollapse<T>(slot: Dest)
    requires slot.Slot?
    ensures FromNative(Slice([Slice([]), Slice([])])) == Success(EmptyArray<T>())
    ensures ToNative(EmptyArray<T>(), DynLevel(DynLevel(slot))) == Success(Slice([]))
  {
    var n: Native<T> := Slice([Slice([]), Slice([])]);
    assert ProbeLengths(n) == [2, 0];
    assert Flatten(n, [2, 0]) == Success([]);
  }

  /** A null element goes into a nullable slot (`*net.IPNet`, `net.IP`) as nil. */
  lemma AssignNullElementToNullableSlot<T>()
    ensures ToNative(ArrayValue([Element<T>.NullElement], [ArrayDimension(1, 1)], Present), DynLevel(Slot(true))) ==
            Success(Slice([NullLeaf]))
  {
    Ingest.SetOneDimension<T>([NullLeaf]);
    RoundTrip.SetThenAssignTo<T>(Slice([NullLeaf]), DynLevel(Slot(true)));
  }

  /**
   * The four rejected assignments: a null element into `[]time.Time` or
   * `[]string`; dimensions 1 x 2 into `[2][1]T`; dimensions 1 x 2 into
   * `[]T`; dimensions 2 x 1 into `[2][1][1][3]T`.
   */
  lemma AssignToErrors<T>(x: T, y: T)
    ensures ToNative(ArrayValue([Element<T>.NullElement], [ArrayDimension(1, 1)], Present), DynLevel(Slot(false))).Failure?
    ensures var oneByTwo := ArrayValue([PresentElement(x), PresentElement(y)],
                                       [ArrayDimension(1, 1), ArrayDimension(2, 1)], Present);
      && ToNative(oneByTwo, FixedLevel(2, FixedLevel(1, Slot(false)))).Failure?
      && ToNative(oneByTwo, DynLevel(Slot(false))).Failure?
    ensures var twoByOne := ArrayValue([PresentElement(x), PresentElement(y)],
                                       [ArrayDimension(2, 1), ArrayDimension(1, 1)], Present);
      ToNative(twoByOne, FixedLevel(2, FixedLevel(1, FixedLevel(1, FixedLevel(3, Slot(false)))))).Failure?
  {
    assert Lengths([ArrayDimension(1, 1)]) == [1];
    assert Lengths([ArrayDimension(1, 1), ArrayDimension(2, 1)]) == [1, 2];
    assert Lengths([ArrayDimension(2, 1), ArrayDimension(1, 1)]) == [2, 1];
  }
}

=== FILE: hex.dfy ===
/** Bytes and their two-digit hexadecimal text. */
module Hex {
  import opened Wrappers

  newtype byte = x: int | 0 <= x < 256

  predicate IsLowerHexDigit(c: char) {
    ('0' <= c <= '9') || ('a' <= c <= 'f')
  }

  /** The lower-case digit for a value below 16. */
  function Digit(d: int): (c: char)
    requires 0 <= d < 16
    ensures IsLowerHexDigit(c)
  {
    if d < 10 then ('0' as int + d) as char else ('a' as int + d - 10) as char
  }

  /** The value of a hexadecimal digit, either case; None for any other character. */
  function DigitValue(c: char): (r: Option<int>)
    ensures r.Some? ==> 0 <= r.value < 16
    ensures r.Some? <==> IsLowerHexDigit(c) || ('A' <= c <= 'F')
    ensures r.Some? && IsLowerHexDigit(c) ==> Digit(r.value) == c
    ensures 'A' <= c <= 'F' ==> r.Some? && Digit(r.value) == LowerChar(c)
  {
    if '0' <= c <= '9' then Some(c as int - '0' as int)
    else if 'a' <= c <= 'f' then Some(c as int - 'a' as int + 10)
    else if 'A' <= c <= 'F' then Some(c as int - 'A' as int + 10)
    else None
  }

  /** Upper-case 'A' to 'F' as lower case; every other character is kept. */
  function LowerChar(c: char): char {
    if 'A' <= c <= 'F' then (c as int + 32) as char else c
  }

  function LowerText(s: string): (r: string)
    ensures |r| == |s| && forall i :: 0 <= i < |s| ==> r[i] == LowerChar(s[i])
  {
    seq(|s|, i requires 0 <= i < |s| => LowerChar(s[i]))
  }

  lemma DigitValueOfDigit(d: int)
    requires 0 <= d < 16
    ensures DigitValue(Digit(d)) == Some(d)
  {
  }

  /** Two lower-case digits per byte, high nibble first. */
  function Encode(bytes: seq<byte>): (s: string)
    ensures |s| == 2 * |bytes|
    ensures forall i :: 0 <= i < |s| ==> IsLowerHexDigit(s[i])
  {
    if bytes == [] then []
    else [Digit(bytes[0] as int / 16), Digit(bytes[0] as int % 16)] + Encode(bytes[1..])
  }

  /** Reads pairs of digits, either case; fails on an odd length or a non-digit. */
  function Decode(s: string): (r: Option<seq<byte>>)
    ensures r.Some? ==> 2 * |r.value| == |s|
    ensures r.Some? <==> |s| % 2 == 0 && forall i :: 0 <= i < |s| ==> DigitValue(s[i]).Some?
  {
    if s == [] then Some([])
    else if |s| == 1 then None
    else
      var high :- DigitValue(s[0]);
      var low :- DigitValue(s[1]);
      var rest :- Decode(s[2..]);
      Some([(high * 16 + low) as byte] + rest)
  }

  /** Reading digits ignores their case. */
  lemma {:induction false} DecodeIgnoresCase(s: string)
    ensures Decode(s) == Decode(LowerText(s))
  {
    if |s| >= 2 {
      var t := LowerText(s);
      assert t[0] == LowerChar(s[0]) && t[1] == LowerChar(s[1]);
      assert DigitValue(t[0]) == DigitValue(s[0]) && DigitValue(t[1]) == DigitValue(s[1]);
      DecodeIgnoresCase(s[2..]);
      assert LowerText(s[2..]) == t[2..];
    }
  }

  lemma {:induction false} EncodeAppend(a: seq<byte>, b: seq<byte>)
    ensures Encode(a + b) == Encode(a) + Encode(b)
  {
    if a == [] {
      assert a + b == b;
    } else {
      var x, rest := a[0], a[1..];
      assert a == [x] + rest && a + b == [x] + (rest + b);
      EncodeAppend(rest, b);
      EncodeCons(x, rest);
      EncodeCons(x, rest + b);
    }
  }

  lemma EncodeCons(x: byte, rest: seq<byte>)
    ensures Encode([x] + rest) == [Digit(x as int / 16), Digit(x as int % 16)] + Encode(rest)
  {
    assert ([x] + rest)[1..] == rest;
  }

  /** Decoding the encoding gives the bytes back. */
  lemma {:induction false} DecodeEncode(bytes: seq<byte>)
    ensures Decode(Encode(bytes)) == Some(bytes)
  {
    if bytes != [] {
      var s := Encode(bytes);
      DigitValueOfDigit(bytes[0] as int / 16);
      DigitValueOfDigit(bytes[0] as int % 16);
      DecodeEncode(bytes[1..]);
      assert s[2..] == Encode(bytes[1..]);
      assert [bytes[0]] + bytes[1..] == bytes;
    }
  }

  /** Encoding what a lower-case digit string decodes to gives the string back. */
  lemma {:induction false} EncodeDecode(s: string)
    requires forall i :: 0 <= i < |s| ==> IsLowerHexDigit(s[i])
    requires Decode(s).Some?
    ensures Encode(Decode(s).value) == s
  {
    if s != [] {
      var high, low := DigitValue(s[0]).value, DigitValue(s[1]).value;
      EncodeDecode(s[2..]);
      var bytes := Decode(s).value;
      assert bytes[0] as int == high * 16 + low;
      assert bytes[0] as int / 16 == high && bytes[0] as int % 16 == low;
      assert Digit(high) == s[0] && Digit(low) == s[1];
      assert bytes[1..] == Decode(s[2..]).value;
      assert Encode(bytes) == [s[0], s[1]] + Encode(bytes[1..]);
      assert s == [s[0], s[1]] + s[2..];
    }
  }
}

=== FILE: ingest.dfy ===
/**
 * Set: ingestion of a nested native value into the flat array form.
 * The dimensions are probed along the first child at every level, outermost
 * first, each with lower bound 1; the leaves are then collected in row-major
 * order while every level is checked against the probed length.
 */
module Ingest {
  import opened Wrappers
  import opened Values
  import opened Native

  /** The element a native leaf sets: nil becomes a null element. */
  function ElementOf<T>(leaf: Native<T>): (e: Element<T>)
    requires leaf.Leaf? || leaf.NullLeaf?
    ensures e.NullElement? <==> leaf.NullLeaf?
    ensures leaf.Leaf? ==> e == PresentElement(leaf.value)
  {
    if leaf.Leaf? then PresentElement(leaf.value) else NullElement
  }

  /** Lengths seen on the path through the first child of every level. */
  function ProbeLengths<T>(n: Native<T>): (r: seq<nat>)
    ensures r != [] <==> IsSequence(n)
    ensures IsSequence(n) ==> r[0] == |Children(n)|
  {
    match n
    case NilSlice => [0]
    case Slice(items) => [|items|] + (if |items| > 0 then ProbeLengths(items[0]) else [])
    case Fixed(items) => [|items|] + (if |items| > 0 then ProbeLengths(items[0]) else [])
    case _ => []
  }

  /**
   * `n` is rectangular with exactly these lengths: every level has the given
   * number of children and every leaf sits below the last level.
   */
  ghost predicate Shaped<T>(n: Native<T>, lengths: seq<nat>)
    decreases n
  {
    match n
    case NullLeaf => lengths == []
    case Leaf(_) => lengths == []
    case NilSlice => lengths != [] && lengths[0] == 0
    case Slice(items) =>
      lengths != [] && |items| == lengths[0] && forall i :: 0 <= i < |items| ==> Shaped(items[i], lengths[1..])
    case Fixed(items) =>
      lengths != [] && |items| == lengths[0] && forall i :: 0 <= i < |items| ==> Shaped(items[i], lengths[1..])
  }

  /** Depth-first, left-to-right leaves of a tree: the reference row-major order. */
  function Leaves<T>(n: Native<T>): seq<Element<T>>
    decreases n, 1
  {
    match n
    case NullLeaf => [NullElement]
    case Leaf(v) => [PresentElement(v)]
    case NilSlice => []
    case Slice(items) => LeavesAll(items)
    case Fixed(items) => LeavesAll(items)
  }

  function LeavesAll<T>(items: seq<Native<T>>): seq<Element<T>>
    decreases items, 0
  {
    if items == [] then [] else Leaves(items[0]) + LeavesAll(items[1..])
  }

  /**
   * Row-major flattening of `n` against `lengths`; fails when a level's
   * length disagrees, when a leaf sits above the last level, or when a
   * sequence sits where an element belongs.
   */
  function Flatten<T>(n: Native<T>, lengths: seq<nat>): (r: Result<seq<Element<T>>, ArrayError>)
    ensures r.Success? <==> Shaped(n, lengths)
    ensures r.Success? ==> |r.value| == Product(lengths) && r.value == Leaves(n)
    decreases n, 1
  {
    if lengths == [] then
      match n
      case NullLeaf => Success([NullElement])
      case Leaf(v) => Success([PresentElement(v)])
      case _ => Failure(NotAnElement)
    else
      match n
      case NullLeaf => Failure(RaggedDimensions)
      case Leaf(_) => Failure(RaggedDimensions)
      case NilSlice => if lengths[0] == 0 then Success([]) else Failure(RaggedDimensions)
      case Slice(items) =>
        if |items| != lengths[0] then Failure(RaggedDimensions) else FlattenAll(items, lengths[1..])
      case Fixed(items) =>
        if |items| != lengths[0] then Failure(RaggedDimensions) else FlattenAll(items, lengths[1..])
  }

  function FlattenAll<T>(items: seq<Native<T>>, lengths: seq<nat>): (r: Result<seq<Element<T>>, ArrayError>)
    ensures r.Success? <==> forall i :: 0 <= i < |items| ==> Shaped(items[i], lengths)
    ensures r.Success? ==> |r.value| == |items| * Product(lengths) && r.value == LeavesAll(items)
    decreases items, 0
  {
    if items == [] then Success([])
    else
      var head :- Flatten(items[0], lengths);
      var tail :- FlattenAll(items[1..], lengths);
      assert |items| * Product(lengths) == Product(lengths) + (|items| - 1) * Product(lengths);
      Success(head + tail)
  }

  /** The specification of Set. */
  function FromNative<T>(src: Native<T>): (r: Result<ArrayValue<T>, ArrayError>)
    ensures r.Success? ==> WellFormed(r.value) && r.value.status != Undefined && AllDefined(r.value.elements)
    ensures r.Success? ==> UnitLowerBounds(r.value.dimensions)
    ensures r.Success? && r.value.status == Present ==> r.value.elements == Leaves(src)
    ensures r.Success? && r.value.elements != [] ==>
              Lengths(r.value.dimensions) == ProbeLengths(src) && Shaped(src, Lengths(r.value.dimensions))
    ensures (r.Success? && r.value.status == Null) <==> (src.NilSlice? || src.NullLeaf?)
    ensures r.Failure? <==>
              && !(src.NilSlice? || src.NullLeaf?)
              && (!IsSequence(src) || !Shaped(src, ProbeLengths(src)))
  {
    if src.NilSlice? || src.NullLeaf? then Success(NullArray())
    else if !IsSequence(src) then Failure(NotAnArraySource)
    else
      var lengths := ProbeLengths(src);
      var elements :- Flatten(src, lengths);
      LeavesDefined(src);
      if elements == [] then Success(EmptyArray())
      else Success(ArrayValue(elements, UnitDims(lengths), Present))
  }

  /** Leaves come from values and nil pointers only, so none is undefined. */
  lemma {:induction false} LeavesDefined<T>(n: Native<T>)
    ensures AllDefined(Leaves(n))
    decreases n, 1
  {
    match n
    case Slice(items) => LeavesAllDefined(items);
    case Fixed(items) => LeavesAllDefined(items);
    case _ =>
  }

  lemma {:induction false} LeavesAllDefined<T>(items: seq<Native<T>>)
    ensures AllDefined(LeavesAll(items))
    decreases items, 0
  {
    if items != [] {
      var head, tail := Leaves(items[0]), LeavesAll(items[1..]);
      var all: seq<Element<T>> := head + tail;
      LeavesDefined(items[0]);
      LeavesAllDefined(items[1..]);
      assert LeavesAll(items) == all;
      forall i | 0 <= i < |all| ensures !all[i].UndefinedElement? {
        if i >= |head| { assert all[i] == tail[i - |head|]; }
      }
    }
  }

  /**
   * Flat index of leaf `j` of row `i` when every row has `width` leaves,
   * counted row by row; OffsetValue shows it is `i * width + j`.
   */
  function Offset(i: nat, width: nat, j: nat): nat
  {
    if i == 0 then j else width + Offset(i - 1, width, j)
  }

  lemma {:induction false} OffsetValue(i: nat, width: nat, j: nat)
    ensures Offset(i, width, j) == i * width + j
  {
    if i > 0 {
      OffsetValue(i - 1, width, j);
    }
  }

  lemma {:induction false} LeavesAllAt<T>(items: seq<Native<T>>, width: nat, i: nat, j: nat)
    requires forall k :: 0 <= k < |items| ==> |Leaves(items[k])| == width
    requires i < |items| && j < width
    ensures Offset(i, width, j) < |LeavesAll(items)|
    ensures LeavesAll(items)[Offset(i, width, j)] == Leaves(items[i])[j]
  {
    var first, rest := Leaves(items[0]), LeavesAll(items[1..]);
    assert LeavesAll(items) == first + rest;
    if i > 0 {
      assert forall k :: 0 <= k < |items[1..]| ==> |Leaves(items[1..][k])| == width by {
        forall k | 0 <= k < |items[1..]| ensures |Leaves(items[1..][k])| == width {
          assert items[1..][k] == items[k + 1];
        }
      }
      LeavesAllAt(items[1..], width, i - 1, j);
      assert items[1..][i - 1] == items[i];
    }
  }

  /** Every item shaped by `lengths` contributes exactly `Product(lengths)` leaves. */
  lemma RowsHaveWidth<T>(items: seq<Native<T>>, lengths: seq<nat>)
    requires forall k :: 0 <= k < |items| ==> Shaped(items[k], lengths)
    ensures forall k :: 0 <= k < |items| ==> |Leaves(items[k])| == Product(lengths)
  {
    forall k | 0 <= k < |items| ensures |Leaves(items[k])| == Product(lengths) {
      assert Flatten(items[k], lengths).Success?;
    }
  }

  /**
   * Row-major order: element `Offset(i, w, j)`, that is `i * w + j`, of the
   * array Set builds is leaf `j` of the `i`-th outermost item, where `w` is the
   * number of elements per item.
   */
  lemma SetRowMajor<T>(src: Native<T>, a: ArrayValue<T>, i: nat, j: nat)
    requires IsSequence(src) && FromNative(src) == Success(a) && a.elements != []
    requires i < |Children(src)| && j < Product(ProbeLengths(src)[1..])
    ensures var w := Product(ProbeLengths(src)[1..]);
      && Offset(i, w, j) < |a.elements|
      && |Leaves(Children(src)[i])| == w
      && a.elements[Offset(i, w, j)] == Leaves(Children(src)[i])[j]
  {
    var w := Product(ProbeLengths(src)[1..]);
    SetRows(src, a.elements, w);
    LeavesAllAt(Children(src), w, i, j);
  }

  /** A non-empty array built by Set holds its items' leaves, `w` per item. */
  lemma SetRows<T>(src: Native<T>, elements: seq<Element<T>>, w: nat)
    requires IsSequence(src) && FromNative(src).Success? && FromNative(src).value.elements == elements
    requires elements != [] && w == Product(ProbeLengths(src)[1..])
    ensures elements == LeavesAll(Children(src))
    ensures forall k :: 0 <= k < |Children(src)| ==> |Leaves(Children(src)[k])| == w
  {
    var lengths := ProbeLengths(src);
    assert Flatten(src, lengths) == Success(elements);
    RowsHaveWidth(Children(src), lengths[1..]);
  }

  lemma {:induction false} LeavesOfElementRow<T>(leaves: seq<Native<T>>)
    requires forall i :: 0 <= i < |leaves| ==> leaves[i].Leaf? || leaves[i].NullLeaf?
    ensures LeavesAll(leaves) == seq(|leaves|, i requires 0 <= i < |leaves| => ElementOf(leaves[i]))
  {
    if leaves != [] {
      LeavesOfElementRow(leaves[1..]);
    }
  }

  /**
   * A non-empty one-dimensional slice gives one dimension of its length with
   * lower bound 1, and its elements in order, nil leaves becoming null elements.
   */
  lemma SetOneDimension<T>(leaves: seq<Native<T>>)
    requires leaves != []
    requires forall i :: 0 <= i < |leaves| ==> leaves[i].Leaf? || leaves[i].NullLeaf?
    ensures FromNative(Slice(leaves)) ==
      Success(ArrayValue(seq(|leaves|, i requires 0 <= i < |leaves| => ElementOf(leaves[i])),
                         [ArrayDimension(|leaves|, 1)], Present))
  {
    var src := Slice(leaves);
    assert ProbeLengths(src) == [|leaves|];
    assert [|leaves|][1..] == [];
    assert Product([|leaves|]) == |leaves|;
    assert Shaped(src, [|leaves|]);
    assert Flatten(src, [|leaves|]) == Success(LeavesAll(leaves));
    LeavesOfElementRow(leaves);
    assert UnitDims([|leaves|]) == [ArrayDimension(|leaves|, 1)];
  }
}

=== FILE: native.dfy ===
/**
 * Native values and destinations, in place of Go reflection.
 *
 * A native value handed to Set is a tree: slices and fixed-size arrays nest
 * to any depth, and the leaves are element values or nil pointers. A
 * destination handed to AssignTo is the static type of the variable written:
 * a chain of slice or fixed-length levels ending in one element slot, which
 * either can hold nil (`*net.IPNet`, `net.IP`) or cannot (`time.Time`, `string`).
 */
module Native {

  datatype Native<T> =
    | NullLeaf                          // a nil pointer where an element is expected
    | Leaf(value: T)                    // a non-nil element value
    | NilSlice                          // a nil slice
    | Slice(items: seq<Native<T>>)      // a non-nil slice
    | Fixed(items: seq<Native<T>>)      // a fixed-size array

  datatype Dest =
    | Slot(nullable: bool)              // the element slot at the innermost level
    | DynLevel(inner: Dest)             // a slice level, sized by the array's dimension
    | FixedLevel(size: nat, inner: Dest) // a fixed-size array level of exactly `size` items

  predicate IsSequence<T>(n: Native<T>) {
    n.NilSlice? || n.Slice? || n.Fixed?
  }

  /** The children of a sequence node; a nil slice has none. */
  function Children<T>(n: Native<T>): seq<Native<T>>
    requires IsSequence(n)
  {
    if n.NilSlice? then [] else n.items
  }

  /** Number of nesting levels of a destination. */
  function Rank(dest: Dest): nat {
    match dest
    case Slot(_) => 0
    case DynLevel(inner) => 1 + Rank(inner)
    case FixedLevel(_, inner) => 1 + Rank(inner)
  }

  /** Whether the innermost slot of a destination can hold nil. */
  function SlotNullable(dest: Dest): bool {
    match dest
    case Slot(nullable) => nullable
    case DynLevel(inner) => SlotNullable(inner)
    case FixedLevel(_, inner) => SlotNullable(inner)
  }

  /**
   * `n` is a value of the Go type `dest` stands for: slices where the type
   * has slices, fixed arrays of exactly the declared size, and nil only
   * where the type allows it.
   */
  predicate Conforms<T>(n: Native<T>, dest: Dest) {
    match dest
    case Slot(nullable) => n.Leaf? || (n.NullLeaf? && nullable)
    case DynLevel(inner) =>
      n.NilSlice? || (n.Slice? && forall i :: 0 <= i < |n.items| ==> Conforms(n.items[i], inner))
    case FixedLevel(size, inner) =>
      n.Fixed? && |n.items| == size && forall i :: 0 <= i < |n.items| ==> Conforms(n.items[i], inner)
  }

  /**
   * The destination accepts arrays of these lengths: as many levels as there
   * are dimensions, and each fixed level exactly as long as its dimension.
   */
  predicate Fits(dest: Dest, lengths: seq<nat>) {
    match dest
    case Slot(_) => lengths == []
    case DynLevel(inner) => lengths != [] && Fits(inner, lengths[1..])
    case FixedLevel(size, inner) => lengths != [] && lengths[0] == size && Fits(inner, lengths[1..])
  }

  lemma {:induction false} FitsRank(dest: Dest, lengths: seq<nat>)
    requires Fits(dest, lengths)
    ensures |lengths| == Rank(dest)
  {
    match dest
    case Slot(_) =>
    case DynLevel(inner) => FitsRank(inner, lengths[1..]);
    case FixedLevel(_, inner) => FitsRank(inner, lengths[1..]);
  }

  /** No slice, nil or not, anywhere in the value: every sequence node is a fixed array. */
  predicate NoSlices<T>(n: Native<T>) {
    match n
    case NilSlice => false
    case Slice(_) => false
    case Fixed(items) => forall i :: 0 <= i < |items| ==> NoSlices(items[i])
    case _ => true
  }

  /** The same value with every slice, nil or not, replaced by a fixed array of its length. */
  function AsFixed<T>(n: Native<T>): (r: Native<T>)
    ensures IsSequence(n) <==> r.Fixed?
    ensures IsSequence(n) ==> |r.items| == |Children(n)|
    ensures NoSlices(r)
  {
    match n
    case NullLeaf => NullLeaf
    case Leaf(v) => Leaf(v)
    case NilSlice => Fixed([])
    case Slice(items) => Fixed(seq(|items|, i requires 0 <= i < |items| => AsFixed(items[i])))
    case Fixed(items) => Fixed(seq(|items|, i requires 0 <= i < |items| => AsFixed(items[i])))
  }
}

=== FILE: roundtrip.dfy ===
/**
 * Set and AssignTo are inverse to each other: flattening a native value and
 * rebuilding it into a destination of its own type gives it back, and
 * rebuilding an array and flattening the result gives the array back.
 */
module RoundTrip {
  import opened Wrappers
  import opened Values
  import opened Native
  import opened Ingest
  import opened Assign

  lemma {:induction false} BuildFlatten<T>(n: Native<T>, lengths: seq<nat>, dest: Dest)
    requires Conforms(n, dest) && Shaped(n, lengths) && Product(lengths) > 0
    ensures |Leaves(n)| == Product(lengths)
    ensures Build(lengths, Leaves(n), dest) == Success(n)
    decreases n, 1
  {
    assert Flatten(n, lengths).Success?;
    match dest
    case Slot(_) =>
    case DynLevel(inner) =>
      BuildRowsFlatten(n.items, lengths[1..], inner);
    case FixedLevel(_, inner) =>
      BuildRowsFlatten(n.items, lengths[1..], inner);
  }

  lemma {:induction false} BuildRowsFlatten<T>(items: seq<Native<T>>, lengths: seq<nat>, dest: Dest)
    requires forall i :: 0 <= i < |items| ==> Conforms(items[i], dest) && Shaped(items[i], lengths)
    requires Product(lengths) > 0
    ensures |LeavesAll(items)| == |items| * Product(lengths)
    ensures BuildRows(|items|, lengths, LeavesAll(items), dest) == Success(items)
    decreases items, 0
  {
    assert FlattenAll(items, lengths).Success?;
    if items != [] {
      var width := Product(lengths);
      var all := LeavesAll(items);
      BuildFlatten(items[0], lengths, dest);
      BuildRowsFlatten(items[1..], lengths, dest);
      assert all[..width] == Leaves(items[0]);
      assert all[width..] == LeavesAll(items[1..]);
      assert [items[0]] + items[1..] == items;
    }
  }

  /**
   * Set followed by AssignTo into a destination of the source's own type
   * returns the source, for a nil slice, an empty slice, and every source
   * whose array has elements.
   */
  lemma SetThenAssignTo<T>(n: Native<T>, dest: Dest)
    requires Conforms(n, dest) && !dest.Slot?
    requires FromNative(n).Success?
    requires n.NilSlice? || n == Slice([]) || FromNative(n).value.elements != []
    ensures ToNative(FromNative(n).value, dest) == Success(n)
  {
    if !n.NilSlice? && n != Slice([]) {
      var lengths := ProbeLengths(n);
      BuildFlatten(n, lengths, dest);
    }
  }

  /**
   * Set followed by AssignTo into a fixed-size type, for a source with no
   * leaves: the result is the type's zero value, so slices inside come back nil.
   */
  lemma SetThenAssignToLeafless<T>(n: Native<T>, dest: Dest)
    requires Conforms(n, dest) && dest.FixedLevel?
    requires FromNative(n) == Success(EmptyArray())
    ensures EmptyOf<T>(dest).Some?
    ensures ToNative(FromNative(n).value, dest) == Success(EmptyOf<T>(dest).value)
  {
    LeaflessHasZero(n, dest);
  }

  /** A leafless value of a fixed-size type shows that the type has no element slots. */
  lemma {:induction false} LeaflessHasZero<T>(n: Native<T>, dest: Dest)
    requires Conforms(n, dest) && dest.FixedLevel? && Leaves(n) == []
    ensures EmptyOf<T>(dest).Some?
  {
    var size, inner := dest.size, dest.inner;
    if size > 0 {
      var first := n.items[0];
      assert Leaves(n) == Leaves(first) + LeavesAll(n.items[1..]);
      assert Conforms(first, inner);
      match inner
      case Slot(_) =>
        assert |Leaves(first)| == 1;
      case DynLevel(_) =>
      case FixedLevel(_, _) =>
        LeaflessHasZero(first, inner);
    }
  }

  lemma {:induction false} FlattenBuild<T>(lengths: seq<nat>, elements: seq<Element<T>>, dest: Dest)
    requires |elements| == Product(lengths) > 0
    requires Build(lengths, elements, dest).Success?
    ensures var n := Build(lengths, elements, dest).value;
      ProbeLengths(n) == lengths && Shaped(n, lengths) && Leaves(n) == elements
    decreases dest, 0
  {
    var n := Build(lengths, elements, dest).value;
    match dest
    case Slot(_) =>
    case DynLevel(inner) =>
      RestProductPositive(lengths);
      assert BuildRows(lengths[0], lengths[1..], elements, inner) == Success(n.items);
      FlattenBuildRows(lengths[0], lengths[1..], elements, inner, n.items);
      SequenceNode(n, lengths, elements);
    case FixedLevel(_, inner) =>
      RestProductPositive(lengths);
      assert BuildRows(lengths[0], lengths[1..], elements, inner) == Success(n.items);
      FlattenBuildRows(lengths[0], lengths[1..], elements, inner, n.items);
      SequenceNode(n, lengths, elements);
  }

  /** A slice or fixed array whose rows are shaped by the inner lengths is shaped by the whole lengths. */
  lemma SequenceNode<T>(n: Native<T>, lengths: seq<nat>, elements: seq<Element<T>>)
    requires (n.Slice? || n.Fixed?) && lengths != [] && |n.items| == lengths[0] > 0
    ensures && (forall i :: 0 <= i < |n.items| ==> Shaped(n.items[i], lengths[1..]))
            && ProbeLengths(n.items[0]) == lengths[1..] && LeavesAll(n.items) == elements
            ==>
            && ProbeLengths(n) == lengths && Shaped(n, lengths) && Leaves(n) == elements
  {
  }

  lemma {:induction false} FlattenBuildRows<T>(count: nat, lengths: seq<nat>, elements: seq<Element<T>>, dest: Dest,
                                               rows: seq<Native<T>>)
    requires |elements| == count * Product(lengths) && Product(lengths) > 0
    requires BuildRows(count, lengths, elements, dest) == Success(rows)
    ensures forall i :: 0 <= i < |rows| ==> Shaped(rows[i], lengths)
    ensures count > 0 ==> ProbeLengths(rows[0]) == lengths
    ensures LeavesAll(rows) == elements
    decreases dest, count
  {
    if count > 0 {
      var width := Product(lengths);
      var first, rest := BuildRowsStep(count, lengths, elements, dest, rows);
      FlattenBuild(lengths, elements[..width], dest);
      FlattenBuildRows(count - 1, lengths, elements[width..], dest, rest);
      ConsRows(rows, first, rest, lengths, elements[..width], elements[width..]);
    }
  }

  /** One step of BuildRows: the first row is built from the first `width` elements, the rest from the others. */
  lemma BuildRowsStep<T>(count: nat, lengths: seq<nat>, elements: seq<Element<T>>, dest: Dest, rows: seq<Native<T>>)
    returns (first: Native<T>, rest: seq<Native<T>>)
    requires count > 0 && |elements| == count * Product(lengths) && Product(lengths) > 0
    requires BuildRows(count, lengths, elements, dest) == Success(rows)
    ensures Product(lengths) <= |elements|
    ensures |elements[Product(lengths)..]| == (count - 1) * Product(lengths)
    ensures Build(lengths, elements[..Product(lengths)], dest) == Success(first)
    ensures BuildRows(count - 1, lengths, elements[Product(lengths)..], dest) == Success(rest)
    ensures rows == [first] + rest
    ensures elements == elements[..Product(lengths)] + elements[Product(lengths)..]
  {
    var width := Product(lengths);
    PeelRow(count, width);
    first := Build(lengths, elements[..width], dest).value;
    rest := BuildRows(count - 1, lengths, elements[width..], dest).value;
  }

  /**
   * A list of rows is rectangular, with the lengths of its first row, and
   * flattens to `head + tail`, when its first row flattens to `head` and the
   * others to `tail`.
   */
  lemma ConsRows<T>(rows: seq<Native<T>>, first: Native<T>, rest: seq<Native<T>>, lengths: seq<nat>,
                    head: seq<Element<T>>, tail: seq<Element<T>>)
    requires rows == [first] + rest
    ensures && ProbeLengths(first) == lengths && Shaped(first, lengths) && Leaves(first) == head
            && (forall i :: 0 <= i < |rest| ==> Shaped(rest[i], lengths)) && LeavesAll(rest) == tail
            ==>
            && (forall i :: 0 <= i < |rows| ==> Shaped(rows[i], lengths))
            && ProbeLengths(rows[0]) == lengths
            && LeavesAll(rows) == head + tail
  {
    assert rows[1..] == rest;
    if Shaped(first, lengths) && (forall i :: 0 <= i < |rest| ==> Shaped(rest[i], lengths)) {
      forall i | 0 <= i < |rows| ensures Shaped(rows[i], lengths) {
        if i > 0 { assert rows[i] == rest[i - 1]; }
      }
    }
  }

  /**
   * AssignTo followed by Set gives back every well-formed array whose lower
   * bounds are all 1 (the only ones Set produces), when AssignTo succeeds.
   */
  lemma AssignToThenSet<T>(a: ArrayValue<T>, dest: Dest)
    requires WellFormed(a) && a.status != Undefined && UnitLowerBounds(a.dimensions)
    requires ToNative(a, dest).Success?
    ensures FromNative(ToNative(a, dest).value) == Success(a)
  {
    if a.status == Present && a.elements != [] {
      FlattenBuild(Lengths(a.dimensions), a.elements, dest);
      UnitDimsOfLengths(a.dimensions);
    } else if a.status == Present && dest.FixedLevel? {
      EmptyOfIngestsEmpty<T>(dest);
    }
  }

  /**
   * The zero value a fixed-size destination gets for the empty array
   * ingests back to the empty array.
   */
  lemma EmptyOfIngestsEmpty<T>(dest: Dest)
    requires dest.FixedLevel? && EmptyOf<T>(dest).Some?
    ensures FromNative(EmptyOf<T>(dest).value) == Success(EmptyArray())
  {
    EmptyOfFlattens<T>(dest);
  }

  /** A zero value without element slots is rectangular along its probed lengths and has no leaves. */
  lemma {:induction false} EmptyOfFlattens<T>(dest: Dest)
    requires EmptyOf<T>(dest).Some?
    ensures var z := EmptyOf<T>(dest).value; Flatten(z, ProbeLengths(z)) == Success([])
  {
    match dest
    case Slot(_) =>
    case DynLevel(_) =>
    case FixedLevel(size, inner) =>
      if size > 0 {
        EmptyOfFlattens<T>(inner);
        var zi := EmptyOf<T>(inner).value;
        var z := EmptyOf<T>(dest).value;
        assert z.items == seq(size, _ => zi);
        assert ProbeLengths(z) == [size] + ProbeLengths(zi);
        CopiesFlatten(z.items, ProbeLengths(zi));
      }
  }

  lemma {:induction false} CopiesFlatten<T>(items: seq<Native<T>>, lengths: seq<nat>)
    requires forall i :: 0 <= i < |items| ==> Flatten(items[i], lengths) == Success([])
    ensures FlattenAll(items, lengths) == Success([])
  {
    if items != [] {
      assert forall i :: 0 <= i < |items[1..]| ==> items[1..][i] == items[i + 1];
      CopiesFlatten(items[1..], lengths);
    }
  }

  /**
   * For a present array with elements, AssignTo succeeds exactly when the
   * destination has one level per dimension, every fixed-size level matches
   * its dimension, and no element is null unless the slot can hold nil.
   */
  lemma AssignToSucceedsIff<T>(a: ArrayValue<T>, dest: Dest)
    requires WellFormed(a) && a.status == Present && a.elements != []
    ensures ToNative(a, dest).Success? <==>
              Fits(dest, Lengths(a.dimensions)) && AllAssignable(a.elements, SlotNullable(dest))
  {
    if !dest.Slot? {
      BuildSucceedsIff(Lengths(a.dimensions), a.elements, dest);
    }
  }

  /** A fixed-size Go array ingests exactly like the nested slice with the same contents. */
  lemma FixedIngestsLikeSlice<T>(n: Native<T>)
    requires !n.NilSlice?
    ensures FromNative(AsFixed(n)) == FromNative(n)
  {
    ProbeLengthsAsFixed(n);
    FlattenAsFixed(n, ProbeLengths(n));
  }

  lemma {:induction false} ProbeLengthsAsFixed<T>(n: Native<T>)
    ensures ProbeLengths(AsFixed(n)) == ProbeLengths(n)
  {
    match n
    case Slice(items) => if |items| > 0 { ProbeLengthsAsFixed(items[0]); }
    case Fixed(items) => if |items| > 0 { ProbeLengthsAsFixed(items[0]); }
    case _ =>
  }

  lemma {:induction false} FlattenAsFixed<T>(n: Native<T>, lengths: seq<nat>)
    ensures Flatten(AsFixed(n), lengths) == Flatten(n, lengths)
    decreases n, 1
  {
    match n
    case Slice(items) => if lengths != [] { FlattenAllAsFixed(items, lengths[1..]); }
    case Fixed(items) => if lengths != [] { FlattenAllAsFixed(items, lengths[1..]); }
    case _ =>
  }

  lemma {:induction false} FlattenAllAsFixed<T>(items: seq<Native<T>>, lengths: seq<nat>)
    ensures FlattenAll(seq(|items|, i requires 0 <= i < |items| => AsFixed(items[i])), lengths) == FlattenAll(items, lengths)
    decreases items, 0
  {
    if items != [] {
      var fixed := seq(|items|, i requires 0 <= i < |items| => AsFixed(items[i]));
      FlattenAsFixed(items[0], lengths);
      FlattenAllAsFixed(items[1..], lengths);
      assert fixed[1..] == seq(|items[1..]|, i requires 0 <= i < |items[1..]| => AsFixed(items[1..][i]));
    }
  }
}

=== FILE: transcode.dfy ===
/**
 * The transcode round trip, kept abstract: an array is sent as a header
 * (its dimensions, lower bounds included, and whether any element is null)
 * followed by one payload or null marker per element, and read back. No
 * byte layout is modelled; element payloads are carried as they are.
 */
module Transcode {
  import opened Wrappers
  import opened Values
  import opened Native
  import opened Ingest

  datatype Wire<T> =
    | NullWire
    | ArrayWire(dimensions: seq<ArrayDimension>, hasNull: bool, payloads: seq<Option<T>>)

  predicate HasNull<T>(elements: seq<Element<T>>) {
    exists i :: 0 <= i < |elements| && elements[i].NullElement?
  }

  function Payload<T>(e: Element<T>): Option<T>
    requires !e.UndefinedElement?
  {
    if e.PresentElement? then Some(e.value) else None
  }

  function ElementOfPayload<T>(p: Option<T>): (e: Element<T>)
    ensures !e.UndefinedElement? && Payload(e) == p
  {
    if p.Some? then PresentElement(p.value) else NullElement
  }

  /** Sending fails on an undefined array or an undefined element. */
  function Encode<T>(a: ArrayValue<T>): (r: Result<Wire<T>, ArrayError>)
    ensures r.Success? <==> a.status != Undefined && (a.status == Present ==> AllDefined(a.elements))
    ensures r.Success? ==> (r.value.NullWire? <==> a.status == Null)
    ensures r.Success? && r.value.ArrayWire? ==>
              && r.value.dimensions == a.dimensions
              && |r.value.payloads| == |a.elements|
              && (r.value.hasNull <==> HasNull(a.elements))
  {
    match a.status
    case Undefined => Failure(UndefinedStatus)
    case Null => Success(NullWire)
    case Present =>
      if !AllDefined(a.elements) then Failure(UndefinedStatus)
      else Success(ArrayWire(a.dimensions, HasNull(a.elements),
                             seq(|a.elements|, i requires 0 <= i < |a.elements| => Payload(a.elements[i]))))
  }

  /**
   * Reading accepts exactly as many payloads as the dimensions describe, and
   * refuses a header that lists dimensions but describes no elements.
   */
  function Decode<T>(w: Wire<T>): (r: Result<ArrayValue<T>, ArrayError>)
    ensures r.Success? ==> WellFormed(r.value) && r.value.status != Undefined && AllDefined(r.value.elements)
    ensures r.Failure? <==>
              w.ArrayWire? && (|w.payloads| != Cardinality(w.dimensions) || (w.payloads == [] && w.dimensions != []))
  {
    match w
    case NullWire => Success(NullArray())
    case ArrayWire(dimensions, _, payloads) =>
      if |payloads| != Cardinality(dimensions) then Failure(ElementCountMismatch)
      else if payloads == [] && dimensions != [] then Failure(EmptyDimension)
      else Success(ArrayValue(seq(|payloads|, i requires 0 <= i < |payloads| => ElementOfPayload(payloads[i])),
                              dimensions, Present))
  }

  /**
   * An array survives the transcode round trip exactly when it is
   * well-formed and neither it nor any of its elements is undefined: null
   * arrays, empty arrays, null elements and any lower bounds included.
   */
  lemma TranscodeRoundTrip<T>(a: ArrayValue<T>)
    ensures (Encode(a).Success? && Decode(Encode(a).value) == Success(a)) <==>
              WellFormed(a) && a.status != Undefined && AllDefined(a.elements)
  {
    if WellFormed(a) && a.status == Present && AllDefined(a.elements) {
      var w := Encode(a).value;
      assert Decode(w).value.elements == a.elements;
    }
  }

  /** Whatever Set builds from a native value survives the transcode round trip. */
  lemma SetTranscodes<T>(src: Native<T>)
    requires FromNative(src).Success?
    ensures Encode(FromNative(src).value).Success?
    ensures Decode(Encode(FromNative(src).value).value) == FromNative(src)
  {
    TranscodeRoundTrip(FromNative(src).value);
  }

  /**
   * The transcode fixtures survive: the empty present array, the null
   * array, a null element among present ones, and the 2 x 2 array with
   * lower bounds 4 and 2.
   */
  lemma TranscodeFixtures<T>(w: T, x: T, y: T, z: T)
    ensures Decode(Encode(EmptyArray<T>()).value) == Success(EmptyArray())
    ensures Decode(Encode(NullArray<T>()).value) == Success(NullArray())
    ensures var a := ArrayValue([PresentElement(w), NullElement], [ArrayDimension(2, 1)], Present);
      Encode(a).Success? && Encode(a).value.hasNull && Decode(Encode(a).value) == Success(a)
    ensures var a := ArrayValue([PresentElement(w), PresentElement(x), PresentElement(y), PresentElement(z)],
                                [ArrayDimension(2, 4), ArrayDimension(2, 2)], Present);
      Encode(a).Success? && !Encode(a).value.hasNull && Decode(Encode(a).value) == Success(a)
  {
    var pair := ArrayValue([PresentElement(w), NullElement], [ArrayDimension(2, 1)], Present);
    assert Lengths([ArrayDimension(2, 1)]) == [2];
    assert pair.elements[1].NullElement?;
    TranscodeRoundTrip(pair);
    var square := ArrayValue([PresentElement(w), PresentElement(x), PresentElement(y), PresentElement(z)],
                             [ArrayDimension(2, 4), ArrayDimension(2, 2)], Present);
    assert Lengths([ArrayDimension(2, 4), ArrayDimension(2, 2)]) == [2, 2];
    TranscodeRoundTrip(square);
    TranscodeRoundTrip(EmptyArray<T>());
    TranscodeRoundTrip(NullArray<T>());
  }

  /**
   * The element-wise equality the timestamp transcode test compares arrays
   * with: same number of elements, same status, equal elements. It never
   * looks at the dimensions.
   */
  predicate TimestampArraysEqual<T(==)>(a: ArrayValue<T>, b: ArrayValue<T>) {
    && |a.elements| == |b.elements|
    && a.status == b.status
    && forall i :: 0 <= i < |a.elements| ==> a.elements[i] == b.elements[i]
  }

  /**
   * As written, the comparison accepts a decoded array whose dimensions
   * were lost: the 2 x 2 array with lower bounds 4 and 2 equals a flat
   * four-element array.
   */
  lemma TimestampEqualityIgnoresDimensions<T>(w: T, x: T, y: T, z: T)
    ensures var es := [PresentElement(w), PresentElement(x), PresentElement(y), PresentElement(z)];
      var sent := ArrayValue(es, [ArrayDimension(2, 4), ArrayDimension(2, 2)], Present);
      var flat := ArrayValue(es, [ArrayDimension(4, 1)], Present);
      WellFormed(sent) && WellFormed(flat) && TimestampArraysEqual(sent, flat) && sent != flat
  {
    var es := [PresentElement(w), PresentElement(x), PresentElement(y), PresentElement(z)];
    assert Cardinality([ArrayDimension(2, 4), ArrayDimension(2, 2)]) == 4 by {
      assert Lengths([ArrayDimension(2, 4), ArrayDimension(2, 2)]) == [2, 2];
    }
    assert Cardinality([ArrayDimension(4, 1)]) == 4 by {
      assert Lengths([ArrayDimension(4, 1)]) == [4];
    }
  }

  /** The comparison the round trip needs: the element-wise one plus equal dimensions. */
  predicate ArraysEquivalent<T(==)>(a: ArrayValue<T>, b: ArrayValue<T>) {
    TimestampArraysEqual(a, b) && a.dimensions == b.dimensions
  }

  /** With the dimensions compared too, the check is exactly equality of array values. */
  lemma ArraysEquivalentIsEquality<T>(a: ArrayValue<T>, b: ArrayValue<T>)
    ensures ArraysEquivalent(a, b) <==> a == b
  {
    if ArraysEquivalent(a, b) {
      assert a.elements == b.elements;
    }
  }
}

=== FILE: uuid.dfy ===
/**
 * The gofrs UUID adapter: a 16-byte identifier with a status. Set accepts a
 * `[16]byte`, a `[]byte` of 16 bytes, a pointer to another UUID value or the
 * canonical text; AssignTo writes a `[16]byte`, a `[]byte` or the canonical
 * text. The canonical text is the 8-4-4-4-12 hyphenated form of section 3
 * of RFC 4122, written in lower case.
 */
module GofrsUuid {
  import opened Wrappers
  import opened Values
  import opened Hex

  type Bytes16 = s: seq<byte> | |s| == 16 witness [0, 0, 0, 0, 0, 0, 0, 0, 0, 0, 0, 0, 0, 0, 0, 0]

  /** The bytes of the Go zero value. */
  const ZeroBytes: Bytes16 := [0, 0, 0, 0, 0, 0, 0, 0, 0, 0, 0, 0, 0, 0, 0, 0]

  predicate IsHyphenPosition(i: int) {
    i == 8 || i == 13 || i == 18 || i == 23
  }

  /** Number of hyphens before position `i` of the canonical text. */
  function HyphensBefore(i: int): nat {
    if i <= 8 then 0 else if i <= 13 then 1 else if i <= 18 then 2 else if i <= 23 then 3 else 4
  }

  /** 36 characters with hyphens exactly at positions 8, 13, 18 and 23. */
  predicate CanonicalShape(s: string) {
    |s| == 36 && forall i :: 0 <= i < 36 ==> (s[i] == '-' <==> IsHyphenPosition(i))
  }

  /** The canonical text with only lower-case digits between the hyphens. */
  predicate LowerCanonical(s: string) {
    CanonicalShape(s) && forall i :: 0 <= i < 36 && !IsHyphenPosition(i) ==> IsLowerHexDigit(s[i])
  }

  /** Groups 32 digits as 8-4-4-4-12. */
  function Hyphenate(digits: string): (s: string)
    requires |digits| == 32
    ensures |s| == 36
    ensures forall i :: 0 <= i < 36 && IsHyphenPosition(i) ==> s[i] == '-'
    ensures forall i :: 0 <= i < 36 && !IsHyphenPosition(i) ==> s[i] == digits[i - HyphensBefore(i)]
  {
    digits[..8] + "-" + digits[8..12] + "-" + digits[12..16] + "-" + digits[16..20] + "-" + digits[20..]
  }

  /** The 32 digits of a text of canonical length, hyphen positions skipped. */
  function Unhyphenate(s: string): (digits: string)
    requires |s| == 36
    ensures |digits| == 32
    ensures forall i :: 0 <= i < 36 && !IsHyphenPosition(i) ==> digits[i - HyphensBefore(i)] == s[i]
  {
    s[..8] + s[9..13] + s[14..18] + s[19..23] + s[24..]
  }

  lemma UnhyphenateHyphenate(digits: string)
    requires |digits| == 32
    ensures Unhyphenate(Hyphenate(digits)) == digits
  {
    var s := Hyphenate(digits);
    var d := Unhyphenate(s);
    forall k | 0 <= k < 32 ensures d[k] == digits[k] {
      var i := if k < 8 then k else if k < 12 then k + 1 else if k < 16 then k + 2 else if k < 20 then k + 3 else k + 4;
      assert !IsHyphenPosition(i) && i - HyphensBefore(i) == k;
    }
  }

  lemma HyphenateUnhyphenate(s: string)
    requires CanonicalShape(s)
    ensures Hyphenate(Unhyphenate(s)) == s
  {
    var t := Hyphenate(Unhyphenate(s));
    forall i | 0 <= i < 36 ensures t[i] == s[i] {
      if IsHyphenPosition(i) { assert s[i] == '-'; }
    }
  }

  /** The canonical text of 16 bytes. */
  function Format(b: Bytes16): (s: string)
    ensures LowerCanonical(s)
  {
    var digits := Hex.Encode(b);
    var s := Hyphenate(digits);
    assert forall i :: 0 <= i < 36 && !IsHyphenPosition(i) ==> IsLowerHexDigit(s[i]);
    s
  }

  /** The canonical shape with a hexadecimal digit, either case, between the hyphens. */
  predicate Canonical(s: string) {
    CanonicalShape(s) && forall i :: 0 <= i < 36 && !IsHyphenPosition(i) ==> DigitValue(s[i]).Some?
  }

  /** Reads the canonical text, digits in either case. */
  function Parse(s: string): (r: Option<Bytes16>)
    ensures r.Some? <==> Canonical(s)
  {
    if !CanonicalShape(s) then None
    else
      UnhyphenateDigits(s);
      var bytes :- Hex.Decode(Unhyphenate(s));
      Some(bytes)
  }

  /** The digits left after removing the hyphens are the characters between them. */
  lemma UnhyphenateDigits(s: string)
    requires |s| == 36
    ensures (forall k :: 0 <= k < 32 ==> DigitValue(Unhyphenate(s)[k]).Some?) <==>
            (forall i :: 0 <= i < 36 && !IsHyphenPosition(i) ==> DigitValue(s[i]).Some?)
  {
    var digits := Unhyphenate(s);
    if forall i :: 0 <= i < 36 && !IsHyphenPosition(i) ==> DigitValue(s[i]).Some? {
      forall k | 0 <= k < 32 ensures DigitValue(digits[k]).Some? {
        var i := if k < 8 then k else if k < 12 then k + 1 else if k < 16 then k + 2 else if k < 20 then k + 3 else k + 4;
        assert !IsHyphenPosition(i) && i - HyphensBefore(i) == k;
      }
    }
  }

  /** Parsing ignores the case of the digits. */
  lemma ParseIgnoresCase(s: string)
    ensures Parse(s) == Parse(LowerText(s))
  {
    var t := LowerText(s);
    assert CanonicalShape(s) <==> CanonicalShape(t) by {
      if |s| == 36 {
        assert forall i :: 0 <= i < 36 ==> (s[i] == '-' <==> t[i] == '-');
      }
    }
    if CanonicalShape(s) {
      var d := Unhyphenate(s);
      forall k | 0 <= k < 32 ensures Unhyphenate(t)[k] == LowerText(d)[k] {
        var i := if k < 8 then k else if k < 12 then k + 1 else if k < 16 then k + 2 else if k < 20 then k + 3 else k + 4;
        assert !IsHyphenPosition(i) && i - HyphensBefore(i) == k;
      }
      assert Unhyphenate(t) == LowerText(d);
      DecodeIgnoresCase(d);
    }
  }

  /** Formatting what a canonical text in either case parses to gives its lower-case form. */
  lemma FormatParseAnyCase(s: string)
    requires Canonical(s)
    ensures Parse(s).Some? && Format(Parse(s).value) == LowerText(s)
  {
    var t := LowerText(s);
    ParseIgnoresCase(s);
    forall i | 0 <= i < 36 && !IsHyphenPosition(i) ensures IsLowerHexDigit(t[i]) {
      assert DigitValue(s[i]).Some?;
    }
    FormatParse(t);
  }

  /** Parsing the canonical text gives the bytes back. */
  lemma ParseFormat(b: Bytes16)
    ensures Parse(Format(b)) == Some(b)
  {
    UnhyphenateHyphenate(Hex.Encode(b));
    DecodeEncode(b);
  }

  /** Formatting what a lower-case canonical text parses to gives the text back. */
  lemma FormatParse(s: string)
    requires LowerCanonical(s)
    ensures Parse(s).Some? && Format(Parse(s).value) == s
  {
    var digits := Unhyphenate(s);
    forall k | 0 <= k < 32 ensures IsLowerHexDigit(digits[k]) {
      var i := if k < 8 then k else if k < 12 then k + 1 else if k < 16 then k + 2 else if k < 20 then k + 3 else k + 4;
      assert !IsHyphenPosition(i) && i - HyphensBefore(i) == k;
    }
    DecodeAllDigits(digits);
    EncodeDecode(digits);
    HyphenateUnhyphenate(s);
  }

  lemma {:induction false} DecodeAllDigits(s: string)
    requires |s| % 2 == 0
    requires forall i :: 0 <= i < |s| ==> IsLowerHexDigit(s[i])
    ensures Hex.Decode(s).Some?
  {
    if s != [] {
      DecodeAllDigits(s[2..]);
    }
  }

  datatype Uuid = Uuid(bytes: Bytes16, status: Status)

  /** What the tests hand to Set. */
  datatype UuidSource =
    | NilSource                       // untyped nil or a nil []byte
    | ArraySource(fixed: Bytes16)     // a [16]byte
    | SliceSource(slice: seq<byte>)   // a non-nil []byte
    | PointerSource(target: Uuid)     // a *UUID
    | StringSource(text: string)      // a string

  datatype UuidError = WrongByteCount | MalformedText | UndefinedUuid | NullNotAssignableTo

  /** The specification of Set. */
  function FromSource(src: UuidSource): (r: Result<Uuid, UuidError>)
    ensures r.Success? && r.value.status == Null <==> src.NilSource? || (src.PointerSource? && src.target.status == Null)
    ensures src.ArraySource? ==> r == Success(Uuid(src.fixed, Present))
    ensures r.Success? ==> Settled(r.value)
    ensures src.PointerSource? ==> (r.Success? <==> src.target.status != Undefined)
    ensures src.PointerSource? && src.target.status == Present ==> r == Success(src.target)
    ensures src.SliceSource? ==> (r.Success? <==> |src.slice| == 16)
    ensures src.SliceSource? && r.Success? ==> r.value.bytes == src.slice && r.value.status == Present
    ensures src.StringSource? ==> (r.Success? <==> Parse(src.text).Some?)
    ensures src.StringSource? && r.Success? ==> r.value == Uuid(Parse(src.text).value, Present)
    ensures src.NilSource? ==> r == Success(Uuid(ZeroBytes, Null))
  {
    match src
    case NilSource => Success(Uuid(ZeroBytes, Null))
    case ArraySource(b) => Success(Uuid(b, Present))
    case SliceSource(b) => if |b| == 16 then Success(Uuid(b, Present)) else Failure(WrongByteCount)
    case PointerSource(u) =>
      if u.status == Undefined then Failure(UndefinedUuid)
      else if u.status == Null then Success(Uuid(ZeroBytes, Null))
      else Success(u)
    case StringSource(s) =>
      match Parse(s)
      case None => Failure(MalformedText)
      case Some(b) => Success(Uuid(b, Present))
  }

  /** The kind of the variable whose address AssignTo gets. */
  datatype UuidTarget = ArrayTarget | SliceTarget | StringTarget

  datatype UuidNative = ArrayOut(fixed: Bytes16) | SliceOut(slice: seq<byte>) | NilSliceOut | StringOut(text: string)

  /** The specification of AssignTo. */
  function ToTarget(u: Uuid, target: UuidTarget): (r: Result<UuidNative, UuidError>)
    ensures u.status == Present ==> r.Success?
    ensures u.status == Null ==> (r.Success? <==> target == SliceTarget)
    ensures r.Success? ==> TargetOf(r.value) == target
    ensures r.Success? && u.status == Present ==> match r.value
      case ArrayOut(b) => target == ArrayTarget && b == u.bytes
      case SliceOut(b) => target == SliceTarget && b == u.bytes
      case StringOut(s) => target == StringTarget && LowerCanonical(s) && Parse(s) == Some(u.bytes)
      case NilSliceOut => false
  {
    match u.status
    case Undefined => Failure(UndefinedUuid)
    case Null => if target == SliceTarget then Success(NilSliceOut) else Failure(NullNotAssignableTo)
    case Present =>
      ParseFormat(u.bytes);
      match target
      case ArrayTarget => Success(ArrayOut(u.bytes))
      case SliceTarget => Success(SliceOut(u.bytes))
      case StringTarget => Success(StringOut(Format(u.bytes)))
  }

  /** The kind of variable a native value is stored in. */
  function TargetOf(n: UuidNative): UuidTarget {
    match n
    case ArrayOut(_) => ArrayTarget
    case SliceOut(_) | NilSliceOut => SliceTarget
    case StringOut(_) => StringTarget
  }

  /** The native value handed back to Set. */
  function SourceOf(n: UuidNative): UuidSource {
    match n
    case ArrayOut(b) => ArraySource(b)
    case SliceOut(b) => SliceSource(b)
    case NilSliceOut => NilSource
    case StringOut(s) => StringSource(s)
  }

  /** A UUID the adapter can hold: set, and zero bytes when null. */
  predicate Settled(u: Uuid) {
    u.status != Undefined && (u.status == Null ==> u.bytes == ZeroBytes)
  }

  /** AssignTo followed by Set gives back every settled UUID, whichever target was used. */
  lemma AssignToThenSet(u: Uuid, target: UuidTarget)
    requires Settled(u) && ToTarget(u, target).Success?
    ensures FromSource(SourceOf(ToTarget(u, target).value)) == Success(u)
  {
    if u.status == Present {
      ParseFormat(u.bytes);
    }
  }

  /** A lower-case canonical text survives Set followed by AssignTo into a string. */
  lemma TextRoundTrip(s: string)
    requires LowerCanonical(s)
    ensures FromSource(StringSource(s)).Success?
    ensures ToTarget(FromSource(StringSource(s)).value, StringTarget) == Success(StringOut(s))
  {
    FormatParse(s);
  }

  /** Text transcoding: a present UUID travels as its canonical text, a null one as SQL NULL. */
  function EncodeText(u: Uuid): (r: Result<Option<string>, UuidError>)
    ensures r.Success? <==> u.status != Undefined
    ensures r.Success? ==> (r.value.None? <==> u.status == Null)
    ensures r.Success? && r.value.Some? ==> LowerCanonical(r.value.value)
  {
    match u.status
    case Undefined => Failure(UndefinedUuid)
    case Null => Success(None)
    case Present => Success(Some(Format(u.bytes)))
  }

  function DecodeText(text: Option<string>): (r: Result<Uuid, UuidError>)
    ensures r.Success? ==> Settled(r.value)
    ensures r.Success? <==> text.None? || Parse(text.value).Some?
  {
    match text
    case None => Success(Uuid(ZeroBytes, Null))
    case Some(s) =>
      match Parse(s)
      case None => Failure(MalformedText)
      case Some(b) => Success(Uuid(b, Present))
  }

  /** Exactly the settled UUIDs survive the text transcode round trip. */
  lemma TextTranscode(u: Uuid)
    ensures (EncodeText(u).Success? && DecodeText(EncodeText(u).value) == Success(u)) <==> Settled(u)
  {
    if u.status == Present {
      ParseFormat(u.bytes);
    }
  }

  /** A `*[16]byte`, `*[]byte` or `*string` handed to AssignTo. */
  class UuidDestination {
    const target: UuidTarget
    var value: UuidNative

    /** The variable holds a value of its own kind. */
    ghost predicate Valid()
      reads this
    {
      TargetOf(value) == target
    }

    constructor (target: UuidTarget, initial: UuidNative)
      requires TargetOf(initial) == target
      ensures Valid() && this.target == target && value == initial
    {
      this.target := target;
      value := initial;
    }
  }

  /** The adapter's value as a Go struct whose methods update it. */
  class UuidValue {
    var bytes: Bytes16
    var status: Status

    function Value(): Uuid
      reads this
    {
      Uuid(bytes, status)
    }

    /** The zero value `var r UUID`. */
    constructor ()
      ensures Value() == Uuid(ZeroBytes, Undefined)
    {
      bytes, status := ZeroBytes, Undefined;
    }

    /** Replaces the receiver with the UUID read from `src`; on failure it is left as it was. */
    method Set(src: UuidSource) returns (err: Option<UuidError>)
      modifies this
      ensures FromSource(src).Success? ==> err == None && Value() == FromSource(src).value
      ensures FromSource(src).Failure? ==> err == Some(FromSource(src).error) && Value() == old(Value())
    {
      var r := FromSource(src);
      if r.Failure? {
        return Some(r.error);
      }
      bytes, status := r.value.bytes, r.value.status;
      err := None;
    }

    /** Writes the UUID into `dst` in the form its target asks for; on failure `dst` is left as it was. */
    method AssignTo(dst: UuidDestination) returns (err: Option<UuidError>)
      requires dst.Valid()
      modifies dst
      ensures dst.Valid()
      ensures ToTarget(Value(), dst.target).Success? ==>
                err == None && dst.value == ToTarget(Value(), dst.target).value && dst.Valid()
      ensures ToTarget(Value(), dst.target).Failure? ==>
                err == Some(ToTarget(Value(), dst.target).error) && dst.value == old(dst.value)
    {
      var r := ToTarget(Value(), dst.target);
      if r.Failure? {
        return Some(r.error);
      }
      dst.value := r.value;
      err := None;
    }
  }
}

=== FILE: uuid_fixtures.dfy ===
/** The concrete conversions the UUID tests check, restated on the model. */
module UuidFixtures {
  import opened Wrappers
  import opened Values
  import opened Hex
  import opened GofrsUuid

  /** The bytes 0, 1, ..., 15 used throughout the UUID tests. */
  const SampleBytes: Bytes16 := [0, 1, 2, 3, 4, 5, 6, 7, 8, 9, 10, 11, 12, 13, 14, 15]

  const SampleText: string := "00010203-0405-0607-0809-0a0b0c0d0e0f"

  /** The canonical text of bytes 0 to 15 is "00010203-0405-0607-0809-0a0b0c0d0e0f". */
  lemma FormatSample()
    ensures Format(SampleBytes) == SampleText
  {
    SampleTextZeros();
    SampleTextDigits();
    FormatSmallBytes(SampleBytes, SampleText);
  }

  /** The sample text has '0' as the high digit of every byte. */
  lemma SampleTextZeros()
    ensures forall i :: 0 <= i < 36 && !IsHyphenPosition(i) && (i - HyphensBefore(i)) % 2 == 0 ==> SampleText[i] == '0'
  {
  }

  /** The sample text has the digit of byte `k` as the low digit of byte `k`. */
  lemma SampleTextDigits()
    ensures forall i :: 0 <= i < 36 && !IsHyphenPosition(i) && (i - HyphensBefore(i)) % 2 == 1 ==>
              SampleText[i] == Digit(SampleBytes[(i - HyphensBefore(i)) / 2] as int)
  {
  }

  /**
   * With every byte below 16, each byte prints as '0' and its one digit;
   * this fixes the text character by character.
   */
  lemma FormatSmallBytes(b: Bytes16, text: string)
    requires forall i :: 0 <= i < 16 ==> b[i] as int < 16
    requires |text| == 36
    requires forall i :: 0 <= i < 36 && IsHyphenPosition(i) ==> text[i] == '-'
    requires forall i :: 0 <= i < 36 && !IsHyphenPosition(i) && (i - HyphensBefore(i)) % 2 == 0 ==> text[i] == '0'
    requires forall i :: 0 <= i < 36 && !IsHyphenPosition(i) && (i - HyphensBefore(i)) % 2 == 1 ==>
               text[i] == Digit(b[(i - HyphensBefore(i)) / 2] as int)
    ensures Format(b) == text
  {
    EncodeDigits(b);
    var digits := Hex.Encode(b);
    var s := Format(b);
    assert s == Hyphenate(digits);
    forall i | 0 <= i < 36
      ensures s[i] == text[i]
    {
      if !IsHyphenPosition(i) {
        var k := i - HyphensBefore(i);
        assert s[i] == digits[k];
        if k % 2 == 0 {
          assert digits[2 * (k / 2)] == '0';
        } else {
          assert k == 2 * (k / 2) + 1;
        }
      }
    }
  }

  /** Encoding the bytes 0 to 15 one after the other gives "00" ... "0f". */
  lemma {:induction false} EncodeDigits(bytes: seq<byte>)
    requires forall i :: 0 <= i < |bytes| ==> bytes[i] as int < 16
    ensures |Hex.Encode(bytes)| == 2 * |bytes|
    ensures forall i :: 0 <= i < |bytes| ==> Hex.Encode(bytes)[2 * i] == '0' && Hex.Encode(bytes)[2 * i + 1] == Digit(bytes[i] as int)
  {
    if bytes != [] {
      EncodeDigits(bytes[1..]);
      forall i | 0 <= i < |bytes|
        ensures Hex.Encode(bytes)[2 * i] == '0' && Hex.Encode(bytes)[2 * i + 1] == Digit(bytes[i] as int)
      {
        if i > 0 {
          assert Hex.Encode(bytes)[2 * i] == Hex.Encode(bytes[1..])[2 * (i - 1)];
          assert Hex.Encode(bytes)[2 * i + 1] == Hex.Encode(bytes[1..])[2 * (i - 1) + 1];
        }
      }
    }
  }

  /**
   * Each source form the Set test uses gives the present UUID of bytes 0 to
   * 15: a `*UUID`, a `[16]byte`, a 16-byte `[]byte` and the canonical text.
   */
  lemma SetSamples()
    ensures FromSource(PointerSource(Uuid(SampleBytes, Present))) == Success(Uuid(SampleBytes, Present))
    ensures FromSource(ArraySource(SampleBytes)) == Success(Uuid(SampleBytes, Present))
    ensures FromSource(SliceSource(SampleBytes)) == Success(Uuid(SampleBytes, Present))
  {
  }

  lemma SetSampleText()
    ensures Parse(SampleText) == Some(SampleBytes)
    ensures FromSource(StringSource(SampleText)) == Success(Uuid(SampleBytes, Present))
  {
    FormatSample();
    ParseFormat(SampleBytes);
  }

  /** The present UUID of bytes 0 to 15 assigns those bytes to `[16]byte` and `[]byte`, and the canonical text to `string`. */
  lemma AssignSamples()
    ensures ToTarget(Uuid(SampleBytes, Present), ArrayTarget) == Success(ArrayOut(SampleBytes))
    ensures ToTarget(Uuid(SampleBytes, Present), SliceTarget) == Success(SliceOut(SampleBytes))
  {
  }

  lemma AssignSampleText()
    ensures ToTarget(Uuid(SampleBytes, Present), StringTarget) == Success(StringOut(SampleText))
  {
    FormatSample();
    StringTargetOf(SampleBytes, SampleText);
  }

  /** A present UUID assigned to a string destination yields its canonical text. */
  lemma StringTargetOf(b: Bytes16, text: string)
    requires Format(b) == text
    ensures ToTarget(Uuid(b, Present), StringTarget) == Success(StringOut(text))
  {
  }
}

=== FILE: values.dfy ===
/**
 * The array value shared by CIDRArray, TimestampArray and EnumArray:
 * a flat, row-major list of tri-state elements, the list of dimensions
 * (outermost first) and the status of the array as a whole.
 */
module Values {

  /** The tri-state status carried by every scalar and every array value. */
  datatype Status = Undefined | Null | Present

  /** One axis of a rectangular array: its length and its first index. */
  datatype ArrayDimension = ArrayDimension(length: nat, lowerBound: int)

  /** One slot of an array. The payload type `T` is opaque to the array model. */
  datatype Element<T> = UndefinedElement | NullElement | PresentElement(value: T)

  /** `{Elements, Dimensions, Status}`; `elements` is in row-major order. */
  datatype ArrayValue<T> = ArrayValue(elements: seq<Element<T>>, dimensions: seq<ArrayDimension>, status: Status)

  /** What Set and AssignTo report when they cannot convert. */
  datatype ArrayError =
    | NotAnArraySource        // Set was given a single element rather than a slice or array
    | RaggedDimensions        // sibling sub-sequences disagree in length, or leaves sit at different depths
    | NotAnElement            // a sequence stands where an element was expected
    | UndefinedStatus         // the array or an element was never set
    | NotAnArrayDestination   // AssignTo was given a destination that is not a slice or array
    | NullNotAssignable       // a null array or element aimed at a destination that cannot hold nil
    | RankMismatch            // the destination has more or fewer levels than the array has dimensions
    | LengthMismatch          // a fixed-size level disagrees with its dimension
    | ElementCountMismatch    // the elements are not as many as the dimensions describe
    | EmptyDimension          // a header lists dimensions but one of them has length 0

  /** The array of status Null: no elements and no dimensions. */
  function NullArray<T>(): ArrayValue<T> {
    ArrayValue([], [], Null)
  }

  /** The present array with no dimensions: the empty array, distinct from NullArray. */
  function EmptyArray<T>(): ArrayValue<T> {
    ArrayValue([], [], Present)
  }

  /** Product of a list of lengths; the empty product is 1. */
  function Product(lengths: seq<nat>): nat {
    if lengths == [] then 1 else lengths[0] * Product(lengths[1..])
  }

  lemma {:induction false} ProductPositive(lengths: seq<nat>)
    ensures Product(lengths) > 0 <==> forall i :: 0 <= i < |lengths| ==> lengths[i] > 0
  {
    if lengths != [] {
      ProductPositive(lengths[1..]);
      assert forall i :: 1 <= i < |lengths| ==> lengths[i] == lengths[1..][i - 1];
    }
  }

  /** The lengths of a dimension list, outermost first. */
  function Lengths(dims: seq<ArrayDimension>): (r: seq<nat>)
    ensures |r| == |dims|
    ensures forall i :: 0 <= i < |dims| ==> r[i] == dims[i].length
  {
    seq(|dims|, i requires 0 <= i < |dims| => dims[i].length)
  }

  /** The dimension list that ingestion from a native value builds: every lower bound is 1. */
  function UnitDims(lengths: seq<nat>): (r: seq<ArrayDimension>)
    ensures Lengths(r) == lengths
    ensures forall i :: 0 <= i < |r| ==> r[i].lowerBound == 1
  {
    seq(|lengths|, i requires 0 <= i < |lengths| => ArrayDimension(lengths[i], 1))
  }

  predicate UnitLowerBounds(dims: seq<ArrayDimension>) {
    forall i :: 0 <= i < |dims| ==> dims[i].lowerBound == 1
  }

  lemma UnitDimsOfLengths(dims: seq<ArrayDimension>)
    requires UnitLowerBounds(dims)
    ensures UnitDims(Lengths(dims)) == dims
  {
  }

  /** Number of elements a dimension list describes: 0 for no dimensions. */
  function Cardinality(dims: seq<ArrayDimension>): nat {
    if dims == [] then 0 else Product(Lengths(dims))
  }

  /**
   * The array invariant: a present array holds exactly as many elements as its
   * dimensions describe, and has no dimensions exactly when it has no
   * elements; a null or undefined array holds neither elements nor dimensions.
   */
  predicate WellFormed<T>(a: ArrayValue<T>) {
    match a.status
    case Present => |a.elements| == Cardinality(a.dimensions) && (a.elements == [] <==> a.dimensions == [])
    case _ => a.elements == [] && a.dimensions == []
  }

  /** No element is undefined: what every array built by Set or read from the wire satisfies. */
  predicate AllDefined<T>(elements: seq<Element<T>>) {
    forall i :: 0 <= i < |elements| ==> !elements[i].UndefinedElement?
  }
}

=== FILE: wrappers.dfy ===
/** Failure-compatible result types shared by the array and UUID models. */
module Wrappers {

  datatype Option<+T> = None | Some(value: T) {

    predicate IsFailure() {
      None?
    }

    function PropagateFailure<U>(): Option<U>
      requires None?
    {
      None
    }

    function Extract(): T
      requires Some?
    {
      value
    }
  }

  /** The outcome of a conversion: a value, or the error the conversion reports. */
  datatype Result<+R, +E> = Success(value: R) | Failure(error: E) {

    predicate IsFailure() {
      Failure?
    }

    function PropagateFailure<U>(): Result<U, E>
      requires Failure?
    {
      Failure(error)
    }

    function Extract(): R
      requires Success?
    {
      value
    }
  }
}
